=== FILE: README.md ===
# cbtb numeric core, in Dafny

This project models the analysis helpers of the ASSISI `cbtb` toolbox.
These sit between log parsing and plotting:

- the collective-decision metrics of `cbtb/bees/libcollbehav.py`:
  - the binomial significance threshold;
  - the collective decision index (cdi), over a whole series or a trailing period;
  - the volatility index;
  - the choice of the winning side of a binary choice assay;
- the series utilities of `cbtb/logs/process_logs.py`:
  - the forward-cursor resampler `sample_signal`;
  - the two box filters `movavg2` and `movingaverage`;
  - the window-maximum infra-red thresholds;
  - the `mmm:ss` axis formatter;
- the infra-red hit counting of the two log owners in `cbtb/logs/casu_reader.py`;
- the transfer-entropy lag sweep `slide_te_grp` of `cbtb/info_theory/libinfo.py`.
  Here the JIDT calculator is an oracle: a function from the calls made on
  it so far to the outcome of the latest call.

The two scripts under `doc/` repeat `compute_threshold`, `cdi`, `vol_step`,
`volatility` and `_volatility_onefunc` word for word. The model defines each
of them once, in `CollBehav`. The example series of those scripts are in
`ExampleSeries`, and the values the scripts print are proved in
`CdiExamples` and `VolatilityExamples`.

Modelling conventions:

- Numbers are exact: `real` for floats, `int` for Python integers.
- Python 2 semantics are written out: integer `/` floors, `int()` truncates,
  negative slice bounds count from the end, and `[-0:]` is the whole array.
- A Python exception becomes `Failure(kind)`, for example `OutOfRange` for
  an IndexError or `MissingKey` for a KeyError.
- A numpy result that is infinite or not a number becomes `Failure(NonFinite)`.
  numpy returns such values without raising, so this is the one place where
  a `Failure` does not stand for an exception.
- `scipy.stats.binom.sf(L-1, n, p)` is the exact upper tail
  `sum C(n,k) p^k (1-p)^(n-k)` over `k >= L`.

Two consequences of the code that are easy to miss:

- With twelve animals and the defaults the threshold is 10, because
  P(X >= 10) = 79/4096 < 0.05 <= P(X >= 9) = 299/4096
  (`CollBehav.DefaultThresholdTwelve`).
- When no threshold exists, `compute_threshold` returns -1, and `cdi` with
  that threshold is 1.0 for every non-empty series
  (`CollBehav.CdiWithoutThreshold`).

To verify, give Dafny 4.11 every file at once, from this directory:

    dafny verify *.dfy

Layout:

| file | contents |
|---|---|
| `wrappers.dfy` | `Option`, `Result`, and the error kinds |
| `numeric.dfy` | sums, means, Python slicing, `int()` and `ceil` |
| `text.dfy` | decimal digits, padding and stripping, `split(sep)[-1]` |
| `binomial.dfy` | the binomial distribution in exact arithmetic |
| `collbehav.dfy` | `libcollbehav.py` |
| `example_series.dfy` | the example series of `doc/` |
| `cdi_examples.dfy` | the values `doc/cdi_eg.py` prints |
| `volatility_examples.dfy` | the values `doc/volatility_index_eg.py` prints |
| `smoothing.dfy` | `movavg2` and `movingaverage` |
| `resampling.dfy` | `sample_signal` |
| `process_logs.dfy` | `guess_ir_thresh`, `guess_ir_with_offset` and `min_sec_fmtr` |
| `casu_reader.dfy` | the IR part of both log owners |
| `libinfo.dfy` | `slide_te_grp` |

## Model

| member | source | states |
|---|---|---|
| Binomial.UpperTailAtZero | cbtb/bees/libcollbehav.py:47 | The tail at level 0 is the whole distribution: its mass is 1 for every n and p. |
| Binomial.UpperTailAntitone | cbtb/bees/libcollbehav.py:47 | For a probability in [0, 1], raising the level never increases the tail P(X >= L). |
| Binomial.UpperTailAtTop | cbtb/bees/libcollbehav.py:47 | Only n successes reach level n, so P(X >= n) = p^n. |
| Binomial.UpperTailStep | cbtb/bees/libcollbehav.py:47 | The tail recurrence: conditioning on the last trial, the tail of n + 1 trials at L is p times the tail of n trials at L - 1 plus (1 - p) times the tail at L. |
| Binomial.FairTailIsUpperTail | cbtb/bees/libcollbehav.py:47 | The fair-coin table built by averaging neighbours equals the exact tail everywhere. |
| Binomial.FairTwelve | cbtb/bees/libcollbehav.py:47 | For 12 fair trials, P(X >= 10) = 79/4096 and P(X >= 9) = 299/4096. |
| CollBehav.FirstSignificant | cbtb/bees/libcollbehav.py:45-57 | The level scan returns the first level from L on whose tail is below pval, or -1 exactly when no level in L..n is. |
| CollBehav.ComputeThreshold | cbtb/bees/libcollbehav.py:37-57 | A negative array size (n < -1) is an error. The two-sided test raises NotImplemented exactly when the loop runs (n >= 0). n = -1, an invalid probability, or no significant level gives -1. Any other result is the smallest level in 0..n whose tail is below pval. |
| CollBehav.ThresholdCharacterised | cbtb/bees/libcollbehav.py:44-57 | For a valid probability, the one-sided result is L if and only if L is the smallest significant level. |
| CollBehav.ThresholdUpwardClosed | cbtb/bees/libcollbehav.py:44-57 | Every level between the threshold and n is significant as well. |
| CollBehav.ThresholdNeverZero | cbtb/bees/libcollbehav.py:44-57 | For pval <= 1 the threshold is never 0, because the tail at level 0 is 1. |
| CollBehav.ThresholdMissingIff | cbtb/bees/libcollbehav.py:53-57 | For a valid probability the result is -1 if and only if prob^n >= pval. |
| CollBehav.DefaultThresholdMissing | cbtb/bees/libcollbehav.py:37-57 | With the defaults (0.05, 0.5) there is no threshold if and only if n <= 4. |
| CollBehav.DefaultThresholdTwelve | cbtb/bees/libcollbehav.py:37-57 | With the defaults, twelve animals have threshold 10. |
| CollBehav.Flags | cbtb/bees/libcollbehav.py:70-71 | Flag i is 1.0 exactly when sample i reaches the upper threshold or falls to n - upper, and 0.0 otherwise. |
| CollBehav.Cdi | cbtb/bees/libcollbehav.py:59-73 | cdi fails exactly when the threshold fails (n < -1) or the series is empty (NaN mean), and succeeds otherwise. |
| CollBehav.CdiIsDecidedFraction | cbtb/bees/libcollbehav.py:66-73 | The index equals the number of decided samples, counted independently, over the length. It therefore lies in [0, 1]. |
| CollBehav.CdiMirror | cbtb/bees/libcollbehav.py:66-73 | Counting the other side (X to n - X) gives the same index, errors included. |
| CollBehav.CdiWithoutThreshold | cbtb/bees/libcollbehav.py:67-73 | When the threshold is -1, every sample of a non-empty series is decided, whatever its value, and the index is 1.0. |
| CollBehav.CdiForPeriod | cbtb/bees/libcollbehav.py:75-94 | A zero sample interval is a division by zero. |
| CollBehav.CdiForPeriodIsCdiOfWindow | cbtb/bees/libcollbehav.py:84-94 | The period index is `cdi` of the last int(plm * 60 / dt) samples, with Python's slice semantics. |
| CollBehav.CdiForPeriodWhole | cbtb/bees/libcollbehav.py:84-94 | A window count of 0 (the `[-0:]` slice), or of at least the series length, gives `cdi` of the whole series. |
| CollBehav.VolStep | cbtb/bees/libcollbehav.py:4-16 | Fails exactly for t >= len - 1, for t < -len, or for n = 0. Otherwise the score times n is the absolute step, with index -1 wrapping to the last element. It is non-negative for n > 0. |
| CollBehav.VolStepsAreVolSteps | cbtb/bees/libcollbehav.py:24-27 | Each score accumulated by `volatility` is what `vol_step` returns for that step. |
| CollBehav.Volatility | cbtb/bees/libcollbehav.py:18-30 | An empty series, a single sample and a zero population are the three failure cases, each with its own kind. |
| CollBehav.VolatilityIsNormalisedVariation | cbtb/bees/libcollbehav.py:18-30 | The index is the total variation over n * (len - 1). |
| CollBehav.VolatilityConstant | cbtb/bees/libcollbehav.py:18-30 | A constant series has index 0. |
| CollBehav.VolatilityBounds | cbtb/bees/libcollbehav.py:18-30 | Counts within [0, n] give an index within [0, 1]. |
| CollBehav.VolatilityOneFunc | cbtb/bees/libcollbehav.py:32-34 | The divisor as written, n * len - 1, is zero exactly when n * len = 1. |
| CollBehav.VolatilityOneFuncAsWritten | cbtb/bees/libcollbehav.py:32-34 | The one-line form is the total variation over n * len - 1. |
| CollBehav.VolatilityOneFuncIntended | cbtb/bees/libcollbehav.py:32-34 | With the divisor n * (len - 1), the one-line form fails exactly when that product is 0. |
| CollBehav.VolatilityOneFuncIntendedAgrees | cbtb/bees/libcollbehav.py:18-34 | For len >= 2 and n != 0, the corrected one-line form equals `volatility`. |
| CollBehav.Positives | cbtb/bees/libcollbehav.py:104-105 | `_dt[_dt > 0]` holds exactly the strictly positive steps. |
| CollBehav.Mode | cbtb/bees/libcollbehav.py:105 | The mode occurs in the data, no value is more frequent, and it is the smallest among equally frequent values. |
| CollBehav.SampleInterval | cbtb/bees/libcollbehav.py:103-105 | The interval is a strictly positive time step of the log. It fails exactly when no step is positive. |
| CollBehav.Fractions | cbtb/bees/libcollbehav.py:117-120 | Each entry times nbees is the chosen side's count in that row, over the whole log. |
| CollBehav.LateRows | cbtb/bees/libcollbehav.py:109-110 | The judged rows are a suffix of the log: the last int(plm * 60 / interval) rows, or the whole log when that count is 0 or at least the number of rows. |
| CollBehav.Judge | cbtb/bees/libcollbehav.py:111-115 | R if and only if the window is non-empty and the right column sums to strictly more than the left; an empty window's NaN means compare false. |
| CollBehav.IdentifyWinner | cbtb/bees/libcollbehav.py:98-122 | Fails exactly when there is no positive step or nbees = 0. The winner is judged on the trailing rows, and `winfrac` is the winner's column over the whole log divided by nbees. |
| CollBehav.WinnerIsLargerSum | cbtb/bees/libcollbehav.py:109-115 | The winner is R if and only if the late window is non-empty and the right column sums to strictly more than the left. Ties and empty windows go to L. |
| CollBehav.WinnerWholeLog | cbtb/bees/libcollbehav.py:109-110 | A window count of 0, or of at least the number of rows, judges the whole log. |
| CdiExamples.CdiOfTwelve | doc/cdi_eg.py:27-41 | With twelve animals the index is the count of samples at >= 10 or <= 2, over the length. |
| CdiExamples.CdiAllDecided | doc/cdi_eg.py:35-41 | A non-empty series of only 0 and n counts has index 1.0. |
| CdiExamples.CdiNoneDecided | doc/cdi_eg.py:35-41 | A non-empty series strictly between 2 and 10 has index 0.0. |
| CdiExamples.CdiConstantExtremes | doc/cdi_eg.py:71-79 | Constant n and constant 0 give 1.0. |
| CdiExamples.CdiConstantUndecided | doc/cdi_eg.py:71-81 | Constant n/2 and constant threshold - 1 (9) give 0.0. |
| CdiExamples.CdiOscillations | doc/cdi_eg.py:50-86 | Losc1 and Losc2 give 1.0. |
| CdiExamples.CountTwoLevel | doc/cdi_eg.py:52-55 | A period-four two-level series with one decided and one undecided level has exactly half its samples decided. |
| CdiExamples.CdiLosc3 | doc/cdi_eg.py:55-87 | Losc3 (n n n/2 n/2 ...) gives 0.5. |
| CdiExamples.CdiSteps | doc/cdi_eg.py:58-92 | L1step and L2 give 1.0. |
| CdiExamples.CdiL1ramp | doc/cdi_eg.py:58-91 | L1ramp gives 43/50: the ramp passes through the seven undecided counts 3 to 9. |
| CdiExamples.CdiOnset | doc/cdi_eg.py:96-106 | A decision from sample `onset` of 50 on gives (50 - onset) / 50. |
| CdiExamples.CdiDecisionSpeed | doc/cdi_eg.py:96-106 | Dfast, Dmid and Dslow give 0.9, 0.5 and 0.2. |
| VolatilityExamples.VolatilityOfTwelve | doc/volatility_index_eg.py:3-29 | With twelve animals the index is the total variation over 12 * (len - 1). |
| VolatilityExamples.VariationTwoLevel | doc/volatility_index_eg.py:42-45 | A period-four two-level series of 4j + 2 samples has total variation 2j times the level difference. |
| VolatilityExamples.VolatilityLosc1 | doc/volatility_index_eg.py:40-66 | Losc1 gives the maximal index 1.0. |
| VolatilityExamples.VolatilityLosc2 | doc/volatility_index_eg.py:42-67 | Losc2 gives 24/49. |
| VolatilityExamples.VolatilityLosc3 | doc/volatility_index_eg.py:45-68 | Losc3 gives 9/38. |
| VolatilityExamples.VolatilityL1step | doc/volatility_index_eg.py:51-70 | L1step gives 1/49. |
| VolatilityExamples.VolatilityL1ramp | doc/volatility_index_eg.py:48-71 | L1ramp also gives 1/49: only the magnitude of the change matters. |
| VolatilityExamples.VolatilityL2 | doc/volatility_index_eg.py:55-72 | L2 gives 2/49. |
| VolatilityExamples.VolatilityConstants | doc/volatility_index_eg.py:61-77 | Constant n, 0 and n/2 all give 0. |
| VolatilityExamples.OneFuncLosc1 | doc/volatility_index_eg.py:31-40 | On Losc1 the one-line form as written gives 204/215, while `volatility` and the corrected form give 1.0. |
| Smoothing.CumSumIsPrefixSum | cbtb/logs/process_logs.py:217 | Entry k of the cumulative sum is the sum of the first k samples. |
| Smoothing.BoxMeansAreWindowMeans | cbtb/logs/process_logs.py:217-218 | Entry j of the difference of running totals, over w, is the mean of the w samples from j. |
| Smoothing.Movavg2 | cbtb/logs/process_logs.py:215-223 | Fails exactly for w < 0, or w = 0 on non-empty data (shape mismatch). w >= 2 on empty data gives a NaN pad. Otherwise the length is 2 * (w/2) plus the number of complete windows: len for odd w and len + 1 for even w. |
| Smoothing.Movavg2Interior | cbtb/logs/process_logs.py:217-223 | Output j + w/2 is the mean of data[j .. j + w - 1]. |
| Smoothing.Movavg2Padding | cbtb/logs/process_logs.py:221-223 | The first w/2 outputs are the mean of the first w/2 samples. The last w/2 are the mean of the last (w + 1)/2 samples, because Python 2 floors -w/2. |
| Smoothing.Movavg2Bounds | cbtb/logs/process_logs.py:215-223 | Every output lies within any bounds of the samples. |
| Smoothing.MovingAverage | cbtb/logs/process_logs.py:210-213 | Fails exactly for w <= 0 or empty data. Otherwise max(len, w) entries, each 1/w of the zero-padded window sum at numpy's 'same' offset. |
| Smoothing.MovingAverageMatchesMovavg2 | cbtb/logs/process_logs.py:210-223 | Where the window lies inside the data, `movingaverage` and `movavg2` agree entry by entry. |
| Smoothing.MovingAverageBounds | cbtb/logs/process_logs.py:210-213 | Samples in [0, hi] give outputs in [0, hi]. |
| Resampling.Advance | cbtb/logs/process_logs.py:280-291 | The scan stops at the first row from i on at or after time t, or at the last row, and passes only earlier rows. |
| Resampling.Scan | cbtb/logs/process_logs.py:280-291 | The `while elapsed < t` loop computes `Advance`. |
| Resampling.Cursor | cbtb/logs/process_logs.py:273-294 | The cursor after each output step is a row of the log. |
| Resampling.SampleSignal | cbtb/logs/process_logs.py:247-303 | An unreadable log, dt = 0 and a negative sample count are the three failure cases. Otherwise there are ceil(span / dt) rows, each a copy of the row under the cursor with the input's width, stamped tt * dt + t_offset. |
| Resampling.Latch | cbtb/logs/process_logs.py:273-296 | Each output row is the raw row under the cursor, and each timestamp is tt * dt plus the offset. |
| Resampling.CursorMonotone | cbtb/logs/process_logs.py:274-291 | The cursor never moves backwards. |
| Resampling.CursorStaysLast | cbtb/logs/process_logs.py:286-291 | Once the cursor is on the last row, every later output repeats it. |
| Resampling.CursorIsFirstAtOrAfter | cbtb/logs/process_logs.py:273-293 | For dt >= 0, output tt copies the first row whose relative time is at least (tt - 1) * dt, or the last row. Sorted timestamps are not needed. |
| Resampling.FirstAtOrAfterUnique | cbtb/logs/process_logs.py:280-291 | That row is unique. |
| Resampling.SampleCountCovers | cbtb/logs/process_logs.py:261-266 | For dt > 0, (n - 1) * dt < span <= n * dt. |
| ProcessLogs.GuessIrThresh | cbtb/logs/process_logs.py:203-205 | Fails exactly when the calibration window is empty. Otherwise it is the largest window reading times the gain, whatever the sign of the gain. |
| ProcessLogs.GuessIrWithOffset | cbtb/logs/process_logs.py:206-208 | Fails exactly when the window is empty. Otherwise it is a window reading plus the offset, and no reading plus the offset exceeds it. |
| ProcessLogs.GuessIrThreshIsUpperBound | cbtb/logs/process_logs.py:203-205 | For a non-negative gain, no window reading times the gain exceeds the threshold. |
| ProcessLogs.ThresholdsAgreeOnIdentity | cbtb/logs/process_logs.py:203-208 | Gain 1 and offset 0 give the same threshold. |
| ProcessLogs.MinSec | cbtb/logs/process_logs.py:241-242 | The seconds are in [0, 60) and 60 * minutes + seconds = int(s), for negative s too. |
| ProcessLogs.Label | cbtb/logs/process_logs.py:243 | The minutes right-aligned in three places, a colon, and the seconds zero-padded to two digits. |
| ProcessLogs.MinSecFmtr | cbtb/logs/process_logs.py:232-243 | The label is int(s) // 60 right-aligned in three places, a colon, and int(s) % 60 zero-padded to two digits. |
| ProcessLogs.MinSecFmtrRoundTrip | cbtb/logs/process_logs.py:241-243 | Reading the label back gives int(s): the unpadded field before the colon times 60, plus the two digits after it, which are below 60. |
| CasuReader.ShortName | cbtb/logs/casu_reader.py:74 | The short name is "c" followed by the part of the name after its last dash, with every leading zero stripped: a suffix of that part, starting with a character other than "0", and with only zeros before it. |
| CasuReader.ShortNameOfNumbered | cbtb/logs/casu_reader.py:72-74 | A zero-padded positive number after the last dash comes back as "c" and the number's digits, whatever the prefix and padding. |
| CasuReader.ShortNameOfZero | cbtb/logs/casu_reader.py:74 | A number made only of zeros gives "c". |
| CasuReader.ShortNameFive | cbtb/logs/casu_reader.py:72-74 | "casu-005" gives "c5". |
| CasuReader.ShortNameZero | cbtb/logs/casu_reader.py:74 | "casu-000" gives "c". |
| CasuReader.Thresholds | cbtb/logs/casu_reader.py:138-147 | Fails exactly when the calibration window is empty. Otherwise six thresholds, each the channel's `guess_ir_thresh` at gain 1.1, or `guess_ir_with_offset` when an offset is given. |
| CasuReader.ComputeThresh | cbtb/logs/casu_reader.py:136-149 | Without an IR log nothing changes. With one, it fails exactly on an empty window and otherwise stores the thresholds and leaves the log and the hit counts alone. |
| CasuReader.Above | cbtb/logs/casu_reader.py:164 | Channel c of row r is hit if and only if its reading is strictly above threshold c. |
| CasuReader.Hits | cbtb/logs/casu_reader.py:165 | One count per row, each at most six. |
| CasuReader.HitsCountChannels | cbtb/logs/casu_reader.py:164-165 | A row counts six if and only if every reading is strictly above its threshold, and 0 if and only if none is. |
| CasuReader.CountHits | cbtb/logs/casu_reader.py:164-171 | Fails exactly when the smoother fails. Otherwise the flags are `Above`, the counts are `Hits` of those flags (at most six per row), and the smoothed counts are the chosen filter's output divided by six. |
| CasuReader.ComputeHits | cbtb/logs/casu_reader.py:158-171 | Without an IR log nothing changes. With a log but no thresholds it raises KeyError. With both, it fails exactly when `CountHits` fails, and otherwise stores `CountHits`'s result, leaving the log and the thresholds alone. |
| CasuReader.MaHitsBounds | cbtb/logs/casu_reader.py:167 | The smoothed hit fraction stays within [0, 1], with `movavg2` and with the other owner's `movingaverage`. |
| CasuReader.CalibrationRowsHaveNoHits | cbtb/logs/casu_reader.py:136-171 | With non-negative readings and a non-negative offset, no row of the calibration window counts a hit against the thresholds guessed from it. |
| CasuReader.RemoveNode | cbtb/logs/casu_reader.py:378-389 | The key is gone, every other node is kept with its data, and a missing key changes nothing. |
| CasuReader.RemoveNodeIdempotentCommutes | cbtb/logs/casu_reader.py:378-389 | Removing a node twice is removing it once, and two removals commute. |
| CasuReader.ComputeThreshAll | cbtb/logs/casu_reader.py:338-354 | Fails if and only if some node's window is empty. Otherwise the same nodes, each updated as by the single-casu `compute_thresh`. |
| CasuReader.ComputeHitsAll | cbtb/logs/casu_reader.py:364-376 | Fails if and only if some node's `compute_hits` with `movingaverage` fails. Otherwise the same nodes, each updated that way. |
| LibInfo.Pairs | cbtb/info_theory/libinfo.py:80-104 | Observations are added in zip order, truncated to the shorter ensemble, as (d2, d1) for a negative lag and (d1, d2) otherwise. |
| LibInfo.Protocol | cbtb/info_theory/libinfo.py:80-108 | The calls, in order: the delay property set to abs(L), then l_HISTORY and k_HISTORY, initialise, startAddObservations, the pairs, finaliseAddObservations, the average estimate, and the significance test with `samples`. |
| LibInfo.Perform | cbtb/info_theory/libinfo.py:76-109 | Calls are made in order up to and including the first that raises. Every earlier call returned, and the run completes exactly when no call raised. |
| LibInfo.TryLag | cbtb/info_theory/libinfo.py:76-112 | A lag makes a non-empty prefix of its protocol. The estimate is kept once the average call returns. The p-value is kept exactly when the whole protocol ran and the significance call returned. Otherwise the last call raised. |
| LibInfo.Initial | cbtb/info_theory/libinfo.py:66-68 | R starts as zeros, P as ones, one entry per lag, and `calc_OK` starts true. |
| LibInfo.Step | cbtb/info_theory/libinfo.py:75-112 | One lag touches only its own entries. Once `calc_OK` is false it changes nothing, and it never sets the flag back to true. |
| LibInfo.SlideTeGrp | cbtb/info_theory/libinfo.py:51-115 | R and P have one entry per lag. |
| LibInfo.UntouchedAhead | cbtb/info_theory/libinfo.py:66-75 | Lags not yet reached keep 0.0 and 1.0. |
| LibInfo.SettledBehind | cbtb/info_theory/libinfo.py:69-112 | An entry is never modified after its own lag. |
| LibInfo.FailureSticky | cbtb/info_theory/libinfo.py:68-112 | After the first failure nothing changes: no further calls, and every later entry keeps 0.0 and 1.0. |
| LibInfo.OkOnlyFalls | cbtb/info_theory/libinfo.py:68-112 | `calc_OK` only goes from true to false. |
| LibInfo.LagEntry | cbtb/info_theory/libinfo.py:106-112 | An attempted lag stores its estimate if one came back (else 0.0) and its p-value if one came back (else 1.0). It keeps `calc_OK` exactly when the p-value came back. |
| LibInfo.TryLagSignificanceFails | cbtb/info_theory/libinfo.py:106-112 | When only the significance call raises, the whole protocol ran, the estimate is kept and no p-value is. |
| LibInfo.SignificanceFailure | cbtb/info_theory/libinfo.py:106-112 | A failure of `computeSignificance` leaves R[i] set to the estimate, P[i] at 1.0, and `calc_OK` false. |
| LibInfo.LagCompletes | cbtb/info_theory/libinfo.py:80-108 | With a calculator that never raises, a lag makes its whole protocol and keeps the p-value returned, and the estimate returned to `computeAverageLocalOfObservations`. |
| LibInfo.StepCompletes | cbtb/info_theory/libinfo.py:75-108 | With a calculator that never raises, one step keeps `calc_OK`, makes the whole protocol and stores the p-value and the estimate. |
| LibInfo.NeverRaising | cbtb/info_theory/libinfo.py:69-108 | With a calculator that never raises, the calculator receives exactly the full protocol of each lag in turn, and every P[i] is what it returned to that lag's significance call. |
| LibInfo.NeverRaisingEstimates | cbtb/info_theory/libinfo.py:80-108 | With a calculator that never raises, every R[i] is what it returned to lag i's `computeAverageLocalOfObservations`, the call just before that lag's significance test. |
| LibInfo.SlideTeGrpVerboseAsWritten | cbtb/info_theory/libinfo.py:114 | With `verb` set and at least one lag, the progress line raises IndexError. Otherwise the result is the silent sweep's. |
| LibInfo.VerboseSweepRaises | cbtb/info_theory/libinfo.py:114 | A non-empty sweep fails with `verb` and succeeds without it. |
| LibInfo.SlideTeGrpVerbose | cbtb/info_theory/libinfo.py:114 | With a progress line that has as many arguments as fields, the sweep always succeeds. Since printing is not modelled, the only modelled effect of the fix is that the IndexError disappears. |
| LibInfo.VerboseIsSilent | cbtb/info_theory/libinfo.py:114 | The corrected verbose sweep gives the silent sweep's R and P. |

## Left out

- File and YAML input are not modelled. This covers the log readers, `read_data` and its `numpy.loadtxt` calls, `load_calib_thresh` and owner construction. An IR log enters the model as its loaded rows.
- JVM and JIDT set-up, and the transfer-entropy estimator itself, are not modelled. The calculator is a parameter: a function from the calls made so far to a returned number or a raise. Which exception it raises is not distinguished, since the `except` catches them all.
- Plotting, `show_threshs`, `apply_TE_peaklag` and the `example_TE.py` script are not modelled. They produce output only.
- The random replicates at `doc/cdi_eg.py:110-120` are left out. They depend on random draws.
- Print output is not modelled. This includes the verbose branch of `sample_signal`; its final message reads `tt`, which is unbound when there are no samples. Line 78 of `slide_te_grp` is also left out. Line 114 is modelled under Findings.
- Floating-point rounding is not modelled: every float is an exact real. `t += dt` in `sample_signal` is the exact `(tt - 1) * dt`, and `(1.0 / (len - 1)) * sum` in `volatility` is the exact mean. At boundaries IEEE results can differ, for example a timestamp equal to a grid time, or a tail probability equal to `pval`.
- NaN and infinite numpy values are not carried through the model. Each becomes `Failure(NonFinite)`, although numpy returns them without raising.
- scipy internals are not modelled. `binom.sf` is the exact binomial tail; a probability outside [0, 1] makes every tail NaN, so no level is significant. `stats.mode` is specified as "most frequent, smallest on ties".
- numpy array shapes are preconditions rather than error paths. `Resampling.SampleSignal` requires a rectangular log (every row the same width). The IR functions of `CasuReader` require rows of seven columns, the shape `loadtxt(usecols=1..7)` returns.
- CasuReader.ComputeThreshAll: on failure it reports no partially updated table. The source has already updated the nodes visited before the failing one, in dictionary order.
- CasuReader.ComputeHitsAll: a failure is reported as `None`, without its kind and without a partially updated table. The source updates each node in place in dictionary order, so the hit counts of nodes visited before the failing one stay stored, and which error is raised depends on which failing node comes first.
- CollBehav.CdiForPeriod: its contract states only the division-by-zero case. Its value is given by `CollBehav.CdiForPeriodIsCdiOfWindow`.
- LibInfo.SlideTeGrp: its contract states only the lengths of R and P. The entries are given by the lemmas about the fold (`LibInfo.UntouchedAhead` to `LibInfo.NeverRaising`).
- Non-numeric or non-integer arguments that Python would reject are excluded by the types, for example a float `n` in `compute_threshold`.
- Before `read_data` runs, the multi-casu owner's nodes have no `'ir'` entry and `compute_thresh` raises KeyError. The model starts from nodes whose log has been read or found absent.

## Findings

| source | as written | input that shows it | evidently intended | confidence | as-written member | corrected member |
|---|---|---|---|---|---|---|
| cbtb/bees/libcollbehav.py:34 | operator precedence makes the divisor n * len - 1; the copy in doc/volatility_index_eg.py:33 is the same | Losc1 with n = 12: variation 204 over 215 gives 204/215 instead of 1.0 | divide by n * (len - 1), so the function equals `volatility`, as its docstring says | not executed | CollBehav.VolatilityOneFunc, CollBehav.VolatilityOneFuncAsWritten, VolatilityExamples.OneFuncLosc1 | CollBehav.VolatilityOneFuncIntended, CollBehav.VolatilityOneFuncIntendedAgrees |
| cbtb/info_theory/libinfo.py:114 | with `verb` set, the progress line's format string has three fields but is given only the lag and the estimate, so IndexError is raised outside the `try` | any non-empty `lrng` with `verb=True` | print the lag, the estimate and the p-value, and return R and P as the silent sweep does | not executed | LibInfo.SlideTeGrpVerboseAsWritten, LibInfo.VerboseSweepRaises | LibInfo.SlideTeGrpVerbose, LibInfo.VerboseIsSilent |

=== FILE: binomial.dfy ===
/** The binomial distribution in exact arithmetic: the probability mass of
    `k` successes in `n` trials of probability `p`, and the upper tail
    P(X >= L), which is what `scipy.stats.binom.sf(L - 1, n, p)` computes. */
module Binomial {
  import opened Numeric

  /** Binomial coefficient by Pascal's rule; zero when `k > n`. */
  function Choose(n: nat, k: nat): nat
  {
    if k == 0 then 1
    else if n == 0 then 0
    else Choose(n - 1, k - 1) + Choose(n - 1, k)
  }

  lemma {:induction false} ChooseAbove(n: nat, k: nat)
    requires k > n
    ensures Choose(n, k) == 0
  {
    if n > 0 {
      ChooseAbove(n - 1, k - 1);
      ChooseAbove(n - 1, k);
    }
  }

  lemma {:induction false} ChooseAll(n: nat)
    ensures Choose(n, n) == 1
  {
    if n > 0 {
      ChooseAll(n - 1);
      ChooseAbove(n - 1, n);
    }
  }

  function Pow(x: real, k: nat): real
  {
    if k == 0 then 1.0 else x * Pow(x, k - 1)
  }

  lemma {:induction false} PowNonNegative(x: real, k: nat)
    requires 0.0 <= x
    ensures 0.0 <= Pow(x, k)
  {
    if k > 0 {
      PowNonNegative(x, k - 1);
    }
  }

  /** Raising a probability to a higher power never makes it larger. */
  lemma {:induction false} PowAntitone(x: real, j: nat, k: nat)
    requires 0.0 <= x <= 1.0
    requires j <= k
    ensures Pow(x, k) <= Pow(x, j)
    decreases k - j
  {
    if j < k {
      PowAntitone(x, j, k - 1);
      PowNonNegative(x, k - 1);
      assert x * Pow(x, k - 1) <= Pow(x, k - 1);
    }
  }

  /** The probability of failure in one trial. */
  function Q(p: real): real { 1.0 - p }

  /** P(X == k) for X ~ Binomial(n, p): C(n, k) p^k (1 - p)^(n - k). */
  function Pmf(n: nat, p: real, k: nat): real
  {
    if k <= n then Choose(n, k) as real * Pow(p, k) * Pow(Q(p), n - k) else 0.0
  }

  lemma ProductIdentity(a: real, b: real, p: real, q: real, P: real, R: real)
    ensures (a + b) * (p * P) * (q * R) == p * (a * P * (q * R)) + q * (b * (p * P) * R)
  {
  }

  /** Conditioning on the last trial: k successes in n + 1 trials are k - 1
      successes followed by a success, or k successes followed by a failure. */
  lemma PmfStep(n: nat, p: real, L: nat)
    requires 1 <= L <= n + 1
    ensures Pmf(n + 1, p, L) == p * Pmf(n, p, L - 1) + Q(p) * Pmf(n, p, L)
  {
    var q := Q(p);
    var a := Choose(n, L - 1) as real;
    var b := Choose(n, L) as real;
    var P := Pow(p, L - 1);
    if L <= n {
      var R := Pow(q, n - L);
      assert Pow(q, n + 1 - L) == q * R;
      assert Pow(p, L) == p * P;
      assert Choose(n + 1, L) as real == a + b;
      assert Pmf(n + 1, p, L) == (a + b) * (p * P) * (q * R);
      assert Pmf(n, p, L - 1) == a * P * (q * R);
      assert Pmf(n, p, L) == b * (p * P) * R;
      ProductIdentity(a, b, p, q, P, R);
    } else {
      ChooseAbove(n, L);
      assert Pow(p, L) == p * P;
      assert Choose(n + 1, L) as real == a;
      assert Pmf(n + 1, p, L) == a * (p * P) * 1.0;
      assert Pmf(n, p, L - 1) == a * P * 1.0;
    }
  }

  /** No successes at all: one more failure. */
  lemma PmfStepAtZero(n: nat, p: real)
    ensures Pmf(n + 1, p, 0) == Q(p) * Pmf(n, p, 0)
  {
    assert Choose(n + 1, 0) == 1 && Choose(n, 0) == 1;
    assert Pow(Q(p), n + 1) == Q(p) * Pow(Q(p), n);
  }

  /** Only n successes out of n trials: probability p^n. */
  lemma PmfAtTop(n: nat, p: real)
    ensures Pmf(n, p, n) == Pow(p, n)
  {
    ChooseAll(n);
  }

  lemma MulNonNegative(a: real, b: real)
    requires 0.0 <= a && 0.0 <= b
    ensures 0.0 <= a * b
  {
  }

  lemma PmfNonNegative(n: nat, p: real, k: nat)
    requires 0.0 <= p <= 1.0
    ensures 0.0 <= Pmf(n, p, k)
  {
    if k <= n {
      PowNonNegative(p, k);
      PowNonNegative(Q(p), n - k);
      MulNonNegative(Choose(n, k) as real, Pow(p, k));
      MulNonNegative(Choose(n, k) as real * Pow(p, k), Pow(Q(p), n - k));
    }
  }

  /** P(X >= L) for X ~ Binomial(n, p): the mass of the levels L..n. */
  function UpperTail(n: nat, p: real, L: nat): real
    decreases n + 1 - L
  {
    if L > n then 0.0 else Pmf(n, p, L) + UpperTail(n, p, L + 1)
  }

  /** Peeling the lowest level off a tail; beyond n both sides are zero. */
  lemma UpperTailUnfold(n: nat, p: real, L: nat)
    ensures UpperTail(n, p, L) == Pmf(n, p, L) + UpperTail(n, p, L + 1)
  {
  }

  lemma Regroup(u: real, x: real, y: real, a: real, b: real, c: real, d: real, e: real, f: real, p: real, q: real)
    requires u == a + b && x == c + d && y == e + f
    requires a == p * c + q * e && b == p * d + q * f
    ensures u == p * x + q * y
  {
  }

  /** The tail recurrence:
      P_{n+1}(X >= L) = p P_n(X >= L - 1) + (1 - p) P_n(X >= L). */
  lemma {:induction false} UpperTailStep(n: nat, p: real, L: nat)
    requires 1 <= L
    ensures UpperTail(n + 1, p, L) == p * UpperTail(n, p, L - 1) + Q(p) * UpperTail(n, p, L)
    decreases n + 2 - L
  {
    hide Pmf;
    if L <= n + 1 {
      UpperTailStep(n, p, L + 1);
      PmfStep(n, p, L);
      UpperTailUnfold(n, p, L);
      Regroup(UpperTail(n + 1, p, L), UpperTail(n, p, L - 1), UpperTail(n, p, L),
              Pmf(n + 1, p, L), UpperTail(n + 1, p, L + 1),
              Pmf(n, p, L - 1), UpperTail(n, p, L), Pmf(n, p, L), UpperTail(n, p, L + 1), p, Q(p));
    }
  }

  lemma MassOne(u: real, x: real, y: real, a: real, b: real, c: real, p: real, q: real)
    requires u == x + y && x == q * a && y == p * c + q * b
    requires a + b == c && c == 1.0 && q == 1.0 - p
    ensures u == 1.0
  {
  }

  /** The whole distribution has mass one (the binomial theorem with a + b = 1). */
  lemma {:induction false} UpperTailAtZero(n: nat, p: real)
    ensures UpperTail(n, p, 0) == 1.0
  {
    if n == 0 {
      PmfAtTop(0, p);
    } else {
      UpperTailAtZero(n - 1, p);
      MassStep(n - 1, p);
    }
  }

  /** One more trial keeps the total mass at one. */
  lemma MassStep(m: nat, p: real)
    requires UpperTail(m, p, 0) == 1.0
    ensures UpperTail(m + 1, p, 0) == 1.0
  {
    hide Pmf;
    PmfStepAtZero(m, p);
    UpperTailStep(m, p, 1);
    UpperTailUnfold(m + 1, p, 0);
    UpperTailUnfold(m, p, 0);
    MassOne(UpperTail(m + 1, p, 0), Pmf(m + 1, p, 0), UpperTail(m + 1, p, 1),
            Pmf(m, p, 0), UpperTail(m, p, 1), UpperTail(m, p, 0), p, Q(p));
  }

  lemma {:induction false} UpperTailNonNegative(n: nat, p: real, L: nat)
    requires 0.0 <= p <= 1.0
    ensures 0.0 <= UpperTail(n, p, L)
    decreases n + 1 - L
  {
    if L <= n {
      PmfNonNegative(n, p, L);
      UpperTailNonNegative(n, p, L + 1);
    }
  }

  /** Raising the level can only lower the tail probability. */
  lemma {:induction false} UpperTailAntitone(n: nat, p: real, L: nat, M: nat)
    requires 0.0 <= p <= 1.0
    requires L <= M
    ensures UpperTail(n, p, M) <= UpperTail(n, p, L)
    decreases M - L
  {
    if L < M {
      UpperTailAntitone(n, p, L + 1, M);
      if L <= n {
        PmfNonNegative(n, p, L);
      }
    }
  }

  /** Only n successes reach level n: P(X >= n) = p^n. */
  lemma UpperTailAtTop(n: nat, p: real)
    ensures UpperTail(n, p, n) == Pow(p, n)
  {
    PmfAtTop(n, p);
  }

  /* ---- The fair coin, p = 1/2 ---- */

  /** Upper tails of the fair-coin binomial, tabulated by the tail recurrence
      alone: an independent reference for `UpperTail(m, 0.5, L)`. */
  function FairTail(m: nat, L: nat): real
  {
    if L == 0 then 1.0
    else if L > m then 0.0
    else 0.5 * FairTail(m - 1, L - 1) + 0.5 * FairTail(m - 1, L)
  }

  /** With p = 1/2 the tail recurrence averages the two previous tails. */
  lemma FairStep(n: nat, L: nat, p: real)
    requires 1 <= L <= n + 1 && p == 0.5
    ensures UpperTail(n + 1, p, L) == UpperTail(n, p, L - 1) * 0.5 + UpperTail(n, p, L) * 0.5
  {
    UpperTailStep(n, p, L);
    FairWeights(UpperTail(n + 1, p, L), UpperTail(n, p, L - 1), UpperTail(n, p, L), p, Q(p));
  }

  lemma FairWeights(u: real, a: real, b: real, p: real, q: real)
    requires u == p * a + q * b && p == 0.5 && q == Q(p)
    ensures u == a * 0.5 + b * 0.5
  {
  }

  lemma FairTailStep(n: nat, L: nat, p: real, a: real, b: real)
    requires 1 <= L <= n + 1 && p == 0.5
    requires a == UpperTail(n, p, L - 1) && a == FairTail(n, L - 1)
    requires b == UpperTail(n, p, L) && b == FairTail(n, L)
    ensures UpperTail(n + 1, p, L) == FairTail(n + 1, L)
  {
    FairStep(n, L, p);
  }

  /** The exact tail and the table agree everywhere. */
  lemma {:induction false} FairTailIsUpperTail(m: nat, L: nat, p: real)
    requires p == 0.5
    ensures UpperTail(m, p, L) == FairTail(m, L)
  {
    if L == 0 {
      UpperTailAtZero(m, p);
      assert UpperTail(m, p, L) == FairTail(m, L);
    } else if L <= m {
      FairTailIsUpperTail(m - 1, L - 1, p);
      FairTailIsUpperTail(m - 1, L, p);
      FairTailStep(m - 1, L, p, UpperTail(m - 1, p, L - 1), UpperTail(m - 1, p, L));
      assert UpperTail(m, p, L) == FairTail(m, L);
    } else {
      assert UpperTail(m, p, L) == FairTail(m, L);
    }
  }

  lemma FairTailValue(m: nat, L: nat, p: real, v: real)
    requires p == 0.5 && FairTail(m, L) == v
    ensures UpperTail(m, p, L) == v
  {
    FairTailIsUpperTail(m, L, p);
  }

  /** The four highest tails move one toss further by averaging neighbours. */
  lemma FairDiagonalStep(m: nat)
    requires m >= 3
    ensures FairTail(m + 1, m + 1) == 0.5 * FairTail(m, m)
    ensures FairTail(m + 1, m) == 0.5 * FairTail(m, m - 1) + 0.5 * FairTail(m, m)
    ensures FairTail(m + 1, m - 1) == 0.5 * FairTail(m, m - 2) + 0.5 * FairTail(m, m - 1)
    ensures FairTail(m + 1, m - 2) == 0.5 * FairTail(m, m - 3) + 0.5 * FairTail(m, m - 2)
  {
    assert FairTail(m, m + 1) == 0.0;
  }

  /** Three tosses: tails 1/8, 4/8, 7/8 and 1. */
  lemma FairThree()
    ensures FairTail(3, 3) == 0.125 && FairTail(3, 2) == 0.5
    ensures FairTail(3, 1) == 0.875 && FairTail(3, 0) == 1.0
  {
  }

  lemma FairTableTwelve(n: nat)
    requires n == 12
    ensures FairTail(n, n - 2) == 79.0 / 4096.0
    ensures FairTail(n, n - 3) == 299.0 / 4096.0
  {
    FairThree();
    FairDiagonalStep(n - 9);
    FairDiagonalStep(n - 8);
    FairDiagonalStep(n - 7);
    FairDiagonalStep(n - 6);
    FairDiagonalStep(n - 5);
    FairDiagonalStep(n - 4);
    FairDiagonalStep(n - 3);
    FairDiagonalStep(n - 2);
    FairDiagonalStep(n - 1);
  }

  /** Twelve fair tosses: P(X >= 10) = 79/4096 and P(X >= 9) = 299/4096,
      that is (1 + 12 + 66) and (1 + 12 + 66 + 220) outcomes out of 2^12. */
  lemma FairTwelve(n: nat, p: real)
    requires n == 12 && p == 0.5
    ensures UpperTail(n, p, n - 2) == 79.0 / 4096.0
    ensures UpperTail(n, p, n - 3) == 299.0 / 4096.0
  {
    FairTableTwelve(n);
    FairTailValue(n, n - 2, p, 79.0 / 4096.0);
    FairTailValue(n, n - 3, p, 299.0 / 4096.0);
  }
}

=== FILE: casu_reader.dfy ===
/** The infra-red hit counting of the two log owners: the short casu name,
    per-channel thresholds, hit counts and their smoothed fraction, and the
    removal of a node from a multi-casu owner.

    An IR log is what `numpy.loadtxt` returns for columns 1..7 of the log:
    rows of seven numbers, a timestamp and then one reading per channel. */
module CasuReader {
  import opened Wrappers
  import opened Numeric
  import opened Text
  import opened Smoothing
  import opened ProcessLogs

  /** The six proximity channels F, FR, BR, B, BL, FL. */
  const NChannels: nat := 6

  /** `"c{}".format(cname.split('-')[-1].lstrip('0'))`. */
  function ShortName(cname: string): (r: string)
    ensures |r| >= 1 && r[0] == 'c'
    ensures '-' !in r[1..]
    ensures |r| == 1 || r[1] != '0'
    ensures var f := LastField(cname, '-');
      |r| - 1 <= |f| && r[1..] == f[|f| - (|r| - 1)..] &&
      forall i :: 0 <= i < |f| - (|r| - 1) ==> f[i] == '0'
  {
    var r := "c" + TrimLeft(LastField(cname, '-'), '0');
    assert r[1..] == TrimLeft(LastField(cname, '-'), '0');
    r
  }

  /** The names `casu-001`, `casu-002`, ... shorten to `c1`, `c2`, ...: a
      zero-padded number after the last dash comes back without its padding. */
  lemma ShortNameOfNumbered(prefix: string, n: nat, width: nat)
    requires n >= 1
    ensures ShortName(prefix + "-" + PadLeft(Digits(n), width, '0')) == "c" + Digits(n)
  {
    var d := Digits(n);
    var field := PadLeft(d, width, '0');
    var name := prefix + "-" + field;
    assert field == seq(|field| - |d|, _ => '0') + d;
    LastFieldAt(name, |prefix|);
    assert name[|prefix| + 1..] == field;
    DigitsLeading(n);
    TrimPadding(|field| - |d|, d, '0');
  }

  /** Number zero has nothing left once its zeros are stripped. */
  lemma ShortNameOfZero(prefix: string, k: nat)
    ensures ShortName(prefix + "-" + seq(k, _ => '0')) == "c"
  {
    var z := seq(k, _ => '0');
    LastFieldAt(prefix + "-" + z, |prefix|);
    assert (prefix + "-" + z)[|prefix| + 1..] == z;
    TrimPadding(k, [], '0');
    assert z + [] == z;
  }

  /** After a separator at position `i` with none following, the last field is the rest. */
  lemma LastFieldAt(s: string, i: nat)
    requires i < |s| && s[i] == '-' && '-' !in s[i + 1..]
    ensures LastField(s, '-') == s[i + 1..]
  {
  }

  lemma ShortNameFive()
    ensures ShortName("casu-005") == "c5"
  {
    hide LastField, TrimLeft;
    var s := "casu-005";
    LastFieldAt(s, 4);
    assert s[5..] == "005";
    TrimPadding(2, "5", '0');
    assert seq(2, _ => '0') + "5" == "005";
  }

  lemma ShortNameZero()
    ensures ShortName("casu-000") == "c"
  {
    hide LastField, TrimLeft;
    var s := "casu-000";
    LastFieldAt(s, 4);
    assert s[5..] == "000";
    TrimPadding(3, [], '0');
    assert seq(3, _ => '0') + [] == "000";
  }

  /** The shape of an IR log. */
  predicate IrShaped(ir: seq<seq<real>>)
  {
    forall r :: 0 <= r < |ir| ==> |ir[r]| == NChannels + 1
  }

  /** `ir[:, 1 + c]`, the readings of channel `c`. */
  function Channel(ir: seq<seq<real>>, c: nat): (col: seq<real>)
    requires IrShaped(ir) && c < NChannels
    ensures |col| == |ir| && forall r :: 0 <= r < |ir| ==> col[r] == ir[r][1 + c]
  {
    seq(|ir|, r requires 0 <= r < |ir| => ir[r][1 + c])
  }

  /** The threshold of one channel: the window maximum times 1.1, or plus a
      fixed offset when one is given. */
  function ChannelThresh(ir: seq<seq<real>>, c: nat, preSkip: int, steps: int, fixedOffset: Option<real>): Result<real, Error>
    requires IrShaped(ir) && c < NChannels
  {
    match fixedOffset
    case None => GuessIrThresh(Channel(ir, c), DefaultGain, steps, preSkip)
    case Some(o) => GuessIrWithOffset(Channel(ir, c), steps, preSkip, o)
  }

  /** The rows of the calibration window, as Python clamps them. */
  function WindowStart(ir: seq<seq<real>>, preSkip: int): nat { SliceIndex(|ir|, preSkip) }
  function WindowEnd(ir: seq<seq<real>>, preSkip: int, steps: int): nat { SliceIndex(|ir|, preSkip + steps) }

  predicate WindowEmpty(ir: seq<seq<real>>, preSkip: int, steps: int)
  {
    WindowStart(ir, preSkip) >= WindowEnd(ir, preSkip, steps)
  }

  /** The calibration window of a channel is the channel's readings on the window rows. */
  lemma ChannelWindow(ir: seq<seq<real>>, c: nat, preSkip: int, steps: int)
    requires IrShaped(ir) && c < NChannels
    ensures var w := CalibrationWindow(Channel(ir, c), steps, preSkip);
      (|w| == 0 <==> WindowEmpty(ir, preSkip, steps)) &&
      (!WindowEmpty(ir, preSkip, steps) ==>
        |w| == WindowEnd(ir, preSkip, steps) - WindowStart(ir, preSkip) &&
        forall j :: 0 <= j < |w| ==> w[j] == ir[WindowStart(ir, preSkip) + j][1 + c])
  {
  }

  /** `compute_thresh` on one IR log: one threshold per channel.  Every
      channel has the same window, so either all succeed or the first raises. */
  function Thresholds(ir: seq<seq<real>>, preSkip: int, steps: int, fixedOffset: Option<real>): (r: Result<seq<real>, Error>)
    requires IrShaped(ir)
    ensures r.Failure? <==> WindowEmpty(ir, preSkip, steps)
    ensures r.Failure? ==> r.error == InvalidArgument
    ensures r.Success? ==> (|r.value| == NChannels &&
      forall c :: 0 <= c < NChannels ==> ChannelThresh(ir, c, preSkip, steps, fixedOffset) == Success(r.value[c]))
  {
    ChannelWindow(ir, 0, preSkip, steps);
    if WindowEmpty(ir, preSkip, steps) then Failure(InvalidArgument)
    else
      AllChannelsSucceed(ir, preSkip, steps, fixedOffset);
      Success(seq(NChannels, c requires 0 <= c < NChannels => ChannelThresh(ir, c, preSkip, steps, fixedOffset).value))
  }

  lemma AllChannelsSucceed(ir: seq<seq<real>>, preSkip: int, steps: int, fixedOffset: Option<real>)
    requires IrShaped(ir) && !WindowEmpty(ir, preSkip, steps)
    ensures forall c :: 0 <= c < NChannels ==> ChannelThresh(ir, c, preSkip, steps, fixedOffset).Success?
  {
    forall c | 0 <= c < NChannels
      ensures ChannelThresh(ir, c, preSkip, steps, fixedOffset).Success?
    {
      ChannelWindow(ir, c, preSkip, steps);
    }
  }

  /** Threshold and hit count state of one casu. */
  datatype HitCounts = HitCounts(above: seq<seq<bool>>, hits: seq<nat>, maHits: seq<real>)

  /** The data dictionary of one casu, restricted to the IR entries: `ir` is
      `None` when no IR log was read, `thr` and `hitCounts` are `None` until
      computed. */
  datatype CasuData = CasuData(ir: Option<seq<seq<real>>>, thr: Option<seq<real>>, hitCounts: Option<HitCounts>)

  predicate WellFormed(d: CasuData)
  {
    (d.ir.Some? ==> IrShaped(d.ir.value)) && (d.thr.Some? ==> |d.thr.value| == NChannels)
  }

  /** `compute_thresh` of either owner on one casu's data: nothing happens
      without an IR log. */
  function ComputeThresh(d: CasuData, preSkip: int, steps: int, fixedOffset: Option<real>): (r: Result<CasuData, Error>)
    requires WellFormed(d)
    ensures d.ir.None? ==> r == Success(d)
    ensures d.ir.Some? ==> (r.Failure? <==> WindowEmpty(d.ir.value, preSkip, steps))
    ensures r.Success? ==> WellFormed(r.value) && r.value.ir == d.ir && r.value.hitCounts == d.hitCounts
    ensures r.Success? && d.ir.Some? ==> r.value.thr == Some(Thresholds(d.ir.value, preSkip, steps, fixedOffset).value)
  {
    match d.ir
    case None => Success(d)
    case Some(ir) =>
      var thr :- Thresholds(ir, preSkip, steps, fixedOffset);
      Success(d.(thr := Some(thr)))
  }

  /** Number of `true` entries: `numpy.sum` of a boolean row. */
  function CountTrue(bs: seq<bool>): (k: nat)
    ensures k <= |bs|
  {
    if |bs| == 0 then 0 else (if bs[0] then 1 else 0) + CountTrue(bs[1..])
  }

  lemma {:induction false} CountTrueAll(bs: seq<bool>)
    ensures CountTrue(bs) == |bs| <==> forall i :: 0 <= i < |bs| ==> bs[i]
    ensures CountTrue(bs) == 0 <==> forall i :: 0 <= i < |bs| ==> !bs[i]
  {
    if |bs| > 0 {
      CountTrueAll(bs[1..]);
      assert forall i :: 1 <= i < |bs| ==> bs[i] == bs[1..][i - 1];
    }
  }

  /** `ir_raw > thr`: a channel is hit when its reading is strictly above its threshold. */
  function Above(ir: seq<seq<real>>, thr: seq<real>): (a: seq<seq<bool>>)
    requires IrShaped(ir) && |thr| == NChannels
    ensures |a| == |ir|
    ensures forall r :: 0 <= r < |ir| ==> (|a[r]| == NChannels &&
      forall c :: 0 <= c < NChannels ==> (a[r][c] <==> ir[r][1 + c] > thr[c]))
  {
    seq(|ir|, r requires 0 <= r < |ir| => seq(NChannels, c requires 0 <= c < NChannels => ir[r][1 + c] > thr[c]))
  }

  /** `above_thr.sum(axis=1)`, the number of channels hit in each row. */
  function Hits(above: seq<seq<bool>>): (h: seq<nat>)
    requires forall r :: 0 <= r < |above| ==> |above[r]| == NChannels
    ensures |h| == |above|
    ensures forall r :: 0 <= r < |above| ==> h[r] <= NChannels
  {
    seq(|above|, r requires 0 <= r < |above| => CountTrue(above[r]))
  }

  function AsReals(h: seq<nat>): (x: seq<real>)
    ensures |x| == |h| && forall i :: 0 <= i < |h| ==> x[i] == h[i] as real
  {
    seq(|h|, i requires 0 <= i < |h| => h[i] as real)
  }

  /** `/ float(nchannels)`, element by element. */
  function PerChannel(x: seq<real>): (y: seq<real>)
    ensures |y| == |x| && forall i :: 0 <= i < |x| ==> y[i] * NChannels as real == x[i]
  {
    seq(|x|, i requires 0 <= i < |x| => x[i] / NChannels as real)
  }

  /** Which box filter smooths the hit counts: `movavg2` in the single-casu
      owner, `movingaverage` in the multi-casu owner. */
  datatype Smoother = BoxMeansPadded | BoxConvolution

  function Smooth(x: seq<real>, w: int, smoother: Smoother): Result<seq<real>, Error>
  {
    match smoother
    case BoxMeansPadded => Movavg2(x, w)
    case BoxConvolution => MovingAverage(x, w)
  }

  /** The hit counts of one IR log against the given thresholds. */
  function CountHits(ir: seq<seq<real>>, thr: seq<real>, movavgLen: int, smoother: Smoother): (r: Result<HitCounts, Error>)
    requires IrShaped(ir) && |thr| == NChannels
    ensures r.Failure? <==> Smooth(AsReals(Hits(Above(ir, thr))), movavgLen, smoother).Failure?
    ensures r.Success? ==> |r.value.above| == |r.value.hits| == |ir|
    ensures r.Success? ==> forall i :: 0 <= i < |ir| ==> r.value.hits[i] <= NChannels
    ensures r.Success? ==> (r.value.above == Above(ir, thr) && r.value.hits == Hits(r.value.above) &&
      r.value.maHits == PerChannel(Smooth(AsReals(r.value.hits), movavgLen, smoother).value))
  {
    var above := Above(ir, thr);
    var hits := Hits(above);
    var ma :- Smooth(AsReals(hits), movavgLen, smoother);
    Success(HitCounts(above, hits, PerChannel(ma)))
  }

  /** `compute_hits` on one casu's data.  With an IR log but no thresholds
      the lookup of `'thr'` raises. */
  function ComputeHits(d: CasuData, movavgLen: int, smoother: Smoother): (r: Result<CasuData, Error>)
    requires WellFormed(d)
    ensures d.ir.None? ==> r == Success(d)
    ensures d.ir.Some? && d.thr.None? ==> r == Failure(MissingKey)
    ensures r.Success? ==> WellFormed(r.value) && r.value.ir == d.ir && r.value.thr == d.thr
    ensures d.ir.Some? && d.thr.Some? ==>
      (r.Failure? <==> CountHits(d.ir.value, d.thr.value, movavgLen, smoother).Failure?) &&
      (r.Success? ==> r.value.hitCounts == Some(CountHits(d.ir.value, d.thr.value, movavgLen, smoother).value))
  {
    match d.ir
    case None => Success(d)
    case Some(ir) =>
      if d.thr.None? then Failure(MissingKey)
      else
        var h :- CountHits(ir, d.thr.value, movavgLen, smoother);
        Success(d.(hitCounts := Some(h)))
  }

  /** A row scores every channel exactly when every reading is strictly
      above its threshold, and none exactly when none is. */
  lemma HitsCountChannels(ir: seq<seq<real>>, thr: seq<real>, r: nat)
    requires IrShaped(ir) && |thr| == NChannels && r < |ir|
    ensures Hits(Above(ir, thr))[r] == NChannels <==> forall c :: 0 <= c < NChannels ==> ir[r][1 + c] > thr[c]
    ensures Hits(Above(ir, thr))[r] == 0 <==> forall c :: 0 <= c < NChannels ==> ir[r][1 + c] <= thr[c]
  {
    var a := Above(ir, thr);
    CountTrueAll(a[r]);
  }

  /** The smoothed hit fraction stays in `[0, 1]` with either filter. */
  lemma MaHitsBounds(ir: seq<seq<real>>, thr: seq<real>, movavgLen: int, smoother: Smoother)
    requires IrShaped(ir) && |thr| == NChannels
    requires CountHits(ir, thr, movavgLen, smoother).Success?
    ensures var m := CountHits(ir, thr, movavgLen, smoother).value.maHits;
      forall i :: 0 <= i < |m| ==> 0.0 <= m[i] <= 1.0
  {
    var x := AsReals(Hits(Above(ir, thr)));
    assert forall i :: 0 <= i < |x| ==> 0.0 <= x[i] <= NChannels as real;
    var ma := Smooth(x, movavgLen, smoother).value;
    match smoother
    case BoxMeansPadded => Movavg2Bounds(x, movavgLen, 0.0, NChannels as real);
    case BoxConvolution => MovingAverageBounds(x, movavgLen, NChannels as real);
    assert forall i :: 0 <= i < |ma| ==> 0.0 <= ma[i] <= NChannels as real;
    PerChannelBounds(ma);
  }

  lemma PerChannelBounds(x: seq<real>)
    requires forall i :: 0 <= i < |x| ==> 0.0 <= x[i] <= NChannels as real
    ensures forall i :: 0 <= i < |x| ==> 0.0 <= PerChannel(x)[i] <= 1.0
  {
  }

  /** Thresholds guessed from the calibration window leave that window
      quiet: with non-negative readings, no calibration row of any channel
      counts as a hit, whether the threshold is scaled by 1.1 or raised by
      a non-negative offset. */
  lemma CalibrationRowsHaveNoHits(ir: seq<seq<real>>, preSkip: int, steps: int, fixedOffset: Option<real>, r: nat)
    requires IrShaped(ir)
    requires fixedOffset.Some? ==> fixedOffset.value >= 0.0
    requires Thresholds(ir, preSkip, steps, fixedOffset).Success?
    requires WindowStart(ir, preSkip) <= r < WindowEnd(ir, preSkip, steps)
    requires forall j :: 1 <= j <= NChannels ==> ir[r][j] >= 0.0
    ensures Hits(Above(ir, Thresholds(ir, preSkip, steps, fixedOffset).value))[r] == 0
  {
    var thr := Thresholds(ir, preSkip, steps, fixedOffset).value;
    forall c | 0 <= c < NChannels
      ensures ir[r][1 + c] <= thr[c]
    {
      ChannelWindow(ir, c, preSkip, steps);
      var w := CalibrationWindow(Channel(ir, c), steps, preSkip);
      var j := r - WindowStart(ir, preSkip);
      assert w[j] == ir[r][1 + c];
      var m := MaxOf(w);
      match fixedOffset
      case None =>
        assert thr[c] == m * DefaultGain;
        assert w[j] <= m;
      case Some(o) =>
        assert thr[c] == m + o;
    }
    HitsCountChannels(ir, thr, r);
  }

  /** The node table of the multi-casu owner. */
  type Nodes = map<string, CasuData>

  /** `remove_node`: delete the key when present; otherwise only a warning is printed. */
  function RemoveNode(nodes: Nodes, key: string): (r: Nodes)
    ensures key !in r
    ensures forall k :: k != key ==> (k in r <==> k in nodes)
    ensures forall k :: k in r ==> r[k] == nodes[k]
    ensures key !in nodes ==> r == nodes
  {
    nodes - {key}
  }

  /** Removing a node twice is the same as removing it once, and removals commute. */
  lemma RemoveNodeIdempotentCommutes(nodes: Nodes, a: string, b: string)
    ensures RemoveNode(RemoveNode(nodes, a), a) == RemoveNode(nodes, a)
    ensures RemoveNode(RemoveNode(nodes, a), b) == RemoveNode(RemoveNode(nodes, b), a)
  {
  }

  predicate AllWellFormed(nodes: Nodes)
  {
    forall k :: k in nodes ==> WellFormed(nodes[k])
  }

  /** The multi-casu `compute_thresh`: every node with an IR log gets its
      thresholds; if any node's window is empty the call raises. */
  function ComputeThreshAll(nodes: Nodes, preSkip: int, steps: int, fixedOffset: Option<real>): (r: Result<Nodes, Error>)
    requires AllWellFormed(nodes)
    ensures r.Failure? <==> exists k :: k in nodes && ComputeThresh(nodes[k], preSkip, steps, fixedOffset).Failure?
    ensures r.Success? ==> (r.value.Keys == nodes.Keys &&
      forall k :: k in nodes ==> Success(r.value[k]) == ComputeThresh(nodes[k], preSkip, steps, fixedOffset))
  {
    if exists k :: k in nodes && ComputeThresh(nodes[k], preSkip, steps, fixedOffset).Failure? then
      Failure(InvalidArgument)
    else
      Success(map k | k in nodes :: ComputeThresh(nodes[k], preSkip, steps, fixedOffset).value)
  }

  /** The multi-casu `compute_hits`, smoothing with `movingaverage`.  Which
      error is raised first depends on the dictionary's iteration order, so
      a failure is reported without its kind. */
  function ComputeHitsAll(nodes: Nodes, movavgLen: int): (r: Option<Nodes>)
    requires AllWellFormed(nodes)
    ensures r.None? <==> exists k :: k in nodes && ComputeHits(nodes[k], movavgLen, BoxConvolution).Failure?
    ensures r.Some? ==> (r.value.Keys == nodes.Keys &&
      forall k :: k in nodes ==> Success(r.value[k]) == ComputeHits(nodes[k], movavgLen, BoxConvolution))
  {
    if exists k :: k in nodes && ComputeHits(nodes[k], movavgLen, BoxConvolution).Failure? then
      None
    else
      Some(map k | k in nodes :: ComputeHits(nodes[k], movavgLen, BoxConvolution).value)
  }
}

=== FILE: cdi_examples.dfy ===
/** The demonstration series of the collective decision index, population
    12 (upper threshold 10, lower threshold 2): strong or oscillating
    whole-population decisions score 1, an even split scores 0, and an
    earlier decision scores higher. */
module CdiExamples {
  import opened Wrappers
  import opened Numeric
  import opened CollBehav
  import opened ExampleSeries

  /** With twelve animals the index is the decided count over the length. */
  lemma CdiOfTwelve(X: seq<real>, n: int, k: nat, w: real)
    requires n == 12 && |X| > 0
    requires CountDecided(X, n, 10) == k && k as real / |X| as real == w
    ensures Cdi(X, n) == Success(w)
  {
    hide Cdi, CountDecided, Flags, ComputeThreshold, FirstSignificant;
    DefaultThresholdTwelve(n, DefaultPval, DefaultProb);
    CdiIsDecidedFraction(X, n);
    SuccessIs(Cdi(X, n), w);
  }

  lemma CdiAllDecided(X: seq<real>, n: int)
    requires n == 12 && |X| > 0
    requires forall i :: 0 <= i < |X| ==> X[i] == n as real || X[i] == 0.0
    ensures Cdi(X, n) == Success(1.0)
  {
    hide Cdi, CountDecided, Flags, ComputeThreshold, FirstSignificant;
    CountAllDecided(X, n, 10);
    CdiOfTwelve(X, n, |X|, 1.0);
  }

  lemma CdiNoneDecided(X: seq<real>, n: int)
    requires n == 12 && |X| > 0
    requires forall i :: 0 <= i < |X| ==> 2.0 < X[i] < 10.0
    ensures Cdi(X, n) == Success(0.0)
  {
    hide Cdi, CountDecided, Flags, ComputeThreshold, FirstSignificant;
    CountNoneDecided(X, n, 10);
    CdiOfTwelve(X, n, 0, 0.0);
  }

  /** Constant n and constant 0 are strong decisions. */
  lemma CdiConstantExtremes(n: int)
    requires n == 12
    ensures Cdi(Constant(n as real), n) == Success(1.0)
    ensures Cdi(Constant(0.0), n) == Success(1.0)
  {
    hide Cdi, CountDecided, Flags, ComputeThreshold, FirstSignificant;
    CdiAllDecided(Constant(n as real), n);
    CdiAllDecided(Constant(0.0), n);
  }

  /** An even split (Cn2), and a constant count one below the threshold 10
      (Csub_th), are no decision. */
  lemma CdiConstantUndecided(n: int, v: real)
    requires n == 12 && (v == (n / 2) as real || v == 9.0)
    ensures Cdi(Constant(v), n) == Success(0.0)
  {
    hide Cdi, CountDecided, Flags, ComputeThreshold, FirstSignificant;
    CdiNoneDecided(Constant(v), n);
  }

  /** Whole-population oscillations do not lower the index. */
  lemma CdiOscillations(n: int)
    requires n == 12
    ensures Cdi(Losc1(n), n) == Success(1.0)
    ensures Cdi(Losc2(n), n) == Success(1.0)
  {
    hide Cdi, CountDecided, Flags, ComputeThreshold, FirstSignificant;
    CdiAllDecided(Losc1(n), n);
    CdiAllDecided(Losc2(n), n);
  }

  /** Two of every four samples of a two-level series are decided when
      only the first level is. */
  lemma {:induction false} CountTwoLevel(a: real, b: real, j: nat, n: int, upper: int)
    requires Decided(a, n, upper) && !Decided(b, n, upper)
    ensures CountDecided(TwoLevel(a, b, 4 * j), n, upper) == 2 * j
  {
    hide Cdi, CountDecided, Flags, ComputeThreshold, FirstSignificant;
    if j > 0 {
      var X := TwoLevel(a, b, 4 * j);
      var Y := TwoLevel(a, b, 4 * (j - 1));
      CountTwoLevel(a, b, j - 1, n, upper);
      forall i | 0 <= i < |Y|
        ensures X[4..][i] == Y[i]
      {
        assert (i + 4) % 4 == i % 4;
      }
      assert X[4..] == Y;
      assert X[..4] == [a, a] + [b, b];
      assert X == X[..4] + X[4..];
      CountAllDecided([a, a], n, upper);
      CountNoneDecided([b, b], n, upper);
      CountDecidedAppend([a, a], [b, b], n, upper);
      CountDecidedAppend(X[..4], X[4..], n, upper);
    } else {
      assert TwoLevel(a, b, 0) == [];
      CountNoneDecided([], n, upper);
    }
  }

  /** Losc3 is decided only at its n samples, half of the series. */
  lemma CdiLosc3(n: int)
    requires n == 12
    ensures Cdi(Losc3(n), n) == Success(0.5)
  {
    hide Cdi, CountDecided, Flags, ComputeThreshold, FirstSignificant;
    CountTwoLevel(12.0, 6.0, 5, n, 10);
    assert Losc3(n) == TwoLevel(12.0, 6.0, 4 * 5);
    CdiOfTwelve(Losc3(n), n, 10, 0.5);
  }

  /** Whole-population step changes keep the index at 1. */
  lemma CdiSteps(n: int)
    requires n == 12
    ensures Cdi(L1step(n), n) == Success(1.0)
    ensures Cdi(L2(n), n) == Success(1.0)
  {
    hide Cdi, CountDecided, Flags, ComputeThreshold, FirstSignificant;
    CdiAllDecided(L1step(n), n);
    CdiAllDecided(L2(n), n);
  }

  /** The ramp passes through 7 undecided counts (3 to 9): 43 of 50 samples. */
  lemma CdiL1ramp(n: int)
    requires n == 12
    ensures Cdi(L1ramp(n), n) == Success(43.0 / 50.0)
  {
    hide Cdi, CountDecided, Flags, ComputeThreshold, FirstSignificant;
    var X := L1ramp(n);
    var A, B, C := X[..3], X[3..10], X[10..];
    assert X == A + (B + C);
    CountAllDecided(A, n, 10);
    CountNoneDecided(B, n, 10);
    CountAllDecided(C, n, 10);
    CountDecidedAppend(B, C, n, 10);
    CountDecidedAppend(A, B + C, n, 10);
    CdiOfTwelve(X, n, 43, 43.0 / 50.0);
  }

  /** A decision from sample `onset` on scores the remaining fraction. */
  lemma CdiOnset(n: int, onset: nat)
    requires n == 12 && onset <= 50
    ensures Cdi(Onset(n, onset), n) == Success((50 - onset) as real / 50.0)
  {
    hide Cdi, CountDecided, Flags, ComputeThreshold, FirstSignificant;
    var X := Onset(n, onset);
    assert X == X[..onset] + X[onset..];
    CountNoneDecided(X[..onset], n, 10);
    CountAllDecided(X[onset..], n, 10);
    CountDecidedAppend(X[..onset], X[onset..], n, 10);
    CdiOfTwelve(X, n, 50 - onset, (50 - onset) as real / 50.0);
  }

  /** Faster decisions score higher: Dfast 0.9 > Dmid 0.5 > Dslow 0.2. */
  lemma CdiDecisionSpeed(n: int)
    requires n == 12
    ensures Cdi(Onset(n, 5), n) == Success(0.9)
    ensures Cdi(Onset(n, 25), n) == Success(0.5)
    ensures Cdi(Onset(n, 40), n) == Success(0.2)
  {
    hide Cdi, CountDecided, Flags, ComputeThreshold, FirstSignificant;
    CdiOnset(n, 5);
    CdiOnset(n, 25);
    CdiOnset(n, 40);
  }
}

=== FILE: collbehav.dfy ===
/** Collective-decision metrics for a binary choice assay: the significance
    threshold of a binomial test, the collective decision index (cdi), the
    volatility index, and the choice of the winning side. */
module CollBehav {
  import opened Wrappers
  import opened Numeric
  import opened Binomial

  /* ---- compute_threshold ---- */

  /** The default significance level and per-animal probability. */
  const DefaultPval: real := 0.05
  const DefaultProb: real := 0.5

  /** scipy accepts a binomial probability only inside [0, 1]; outside it
      every tail is NaN, and NaN is never below the significance level. */
  predicate ValidProb(p: real) { 0.0 <= p <= 1.0 }

  /** L is the smallest level in 0..n whose upper tail P(X >= L) is
      strictly below `pval`. */
  predicate IsThreshold(n: nat, prob: real, pval: real, L: int)
  {
    0 <= L <= n && UpperTail(n, prob, L) < pval
    && forall M :: 0 <= M < L ==> UpperTail(n, prob, M) >= pval
  }

  /** No level in 0..n is significant. */
  predicate NoThreshold(n: nat, prob: real, pval: real)
  {
    forall M :: 0 <= M <= n ==> UpperTail(n, prob, M) >= pval
  }

  /** The scan over the levels L, L + 1, ..., n for the first significant one. */
  function FirstSignificant(n: nat, prob: real, pval: real, L: nat): (r: int)
    decreases n + 1 - L
    ensures r == -1 || (L <= r <= n && UpperTail(n, prob, r) < pval)
    ensures r == -1 <==> forall M :: L <= M <= n ==> UpperTail(n, prob, M) >= pval
    ensures r != -1 ==> forall M :: L <= M < r ==> UpperTail(n, prob, M) >= pval
  {
    if L > n then -1
    else if UpperTail(n, prob, L) < pval then L
    else FirstSignificant(n, prob, pval, L + 1)
  }

  /** `compute_threshold(n, onesided, pval, prob)`: a negative array size is a
      ValueError (only n == -1 gives the empty array and so -1), the two-sided
      test raises on the first level, an invalid probability yields no
      significant level. */
  function ComputeThreshold(n: int, onesided: bool, pval: real, prob: real): (r: Result<int, Error>)
    ensures r == Failure(InvalidArgument) <==> n < -1
    ensures r == Failure(NotImplemented) <==> n >= 0 && !onesided
    ensures r.Success? ==> -1 <= r.value <= n
    ensures r.Success? && r.value != -1 ==> IsThreshold(n, prob, pval, r.value)
    ensures r == Success(-1) <==>
              n == -1 || (n >= 0 && onesided && (!ValidProb(prob) || NoThreshold(n, prob, pval)))
  {
    if n < -1 then Failure(InvalidArgument)
    else if n == -1 then Success(-1)
    else if !onesided then Failure(NotImplemented)
    else if !ValidProb(prob) then Success(-1)
    else Success(FirstSignificant(n, prob, pval, 0))
  }

  /** Every level at or above the threshold is significant as well. */
  lemma ThresholdUpwardClosed(n: int, onesided: bool, pval: real, prob: real, M: nat)
    requires ComputeThreshold(n, onesided, pval, prob).Success?
    requires 0 <= ComputeThreshold(n, onesided, pval, prob).value <= M <= n
    ensures UpperTail(n, prob, M) < pval
  {
    UpperTailAntitone(n, prob, ComputeThreshold(n, onesided, pval, prob).value, M);
  }

  /** P(X >= 0) is one, so with pval <= 1 level 0 is never significant. */
  lemma ThresholdNeverZero(n: int, onesided: bool, pval: real, prob: real)
    requires pval <= 1.0
    ensures ComputeThreshold(n, onesided, pval, prob) != Success(0)
  {
    if n >= 0 {
      UpperTailAtZero(n, prob);
    }
  }

  /** There is no threshold exactly when even the top level n, reached with
      probability prob^n, is not significant. */
  lemma ThresholdMissingIff(n: nat, pval: real, prob: real)
    requires ValidProb(prob)
    ensures ComputeThreshold(n, true, pval, prob) == Success(-1) <==> Pow(prob, n) >= pval
  {
    UpperTailAtTop(n, prob);
    if Pow(prob, n) >= pval {
      forall M | 0 <= M <= n
        ensures UpperTail(n, prob, M) >= pval
      {
        UpperTailAntitone(n, prob, M, n);
      }
    }
  }

  /** With the defaults (pval 0.05, prob 1/2) groups of at most four animals
      can never reach significance: 2^-4 = 0.0625 but 2^-5 < 0.05. */
  lemma DefaultThresholdMissing(n: nat, pval: real, prob: real)
    requires pval == DefaultPval && prob == DefaultProb
    ensures ComputeThreshold(n, true, pval, prob) == Success(-1) <==> n <= 4
  {
    ThresholdMissingIff(n, pval, prob);
    assert Pow(prob, 4) == 0.0625;
    assert Pow(prob, 5) == 0.03125;
    if n <= 4 {
      PowAntitone(prob, n, 4);
    } else {
      PowAntitone(prob, 5, n);
    }
  }

  /** With a valid probability the result is the threshold and nothing else:
      a level is returned exactly when it is the first significant one. */
  lemma ThresholdCharacterised(n: nat, pval: real, prob: real, L: nat)
    requires ValidProb(prob)
    ensures ComputeThreshold(n, true, pval, prob) == Success(L) <==> IsThreshold(n, prob, pval, L)
  {
    var r := ComputeThreshold(n, true, pval, prob);
    if IsThreshold(n, prob, pval, L) {
      assert r != Success(-1);
      assert IsThreshold(n, prob, pval, r.value);
      SignificantLevelsAgree(n, prob, pval, L, r.value);
    }
  }

  lemma SignificantLevelsAgree(n: nat, prob: real, pval: real, L: int, M: int)
    requires IsThreshold(n, prob, pval, L) && IsThreshold(n, prob, pval, M)
    ensures L == M
  {
  }

  /** Twelve animals with the defaults: P(X >= 10) = 79/4096 < 0.05 but
      P(X >= 9) = 299/4096 >= 0.05, so the threshold is 10. */
  lemma DefaultThresholdTwelve(n: nat, pval: real, prob: real)
    requires n == 12 && pval == DefaultPval && prob == DefaultProb
    ensures ComputeThreshold(n, true, pval, prob) == Success(10)
  {
    TwelveIsThreshold(n, pval, prob);
    ThresholdCharacterised(n, pval, prob, 10);
  }

  lemma TwelveIsThreshold(n: nat, pval: real, prob: real)
    requires n == 12 && pval == DefaultPval && prob == DefaultProb
    ensures IsThreshold(n, prob, pval, 10)
  {
    hide UpperTail;
    FairTwelve(n, prob);
    forall M | 0 <= M < 10
      ensures UpperTail(n, prob, M) >= pval
    {
      UpperTailAntitone(n, prob, M, 9);
    }
  }

  /* ---- cdi and cdi_for_period ---- */

  /** The upper threshold used by `cdi`: the default one-sided test. */
  function UpperThreshold(n: int): Result<int, Error>
  {
    ComputeThreshold(n, true, DefaultPval, DefaultProb)
  }

  /** A sample counts as a collective decision when it reaches the upper
      threshold or falls to the mirrored lower threshold n - upper. */
  predicate Decided(x: real, n: int, upper: int)
  {
    x >= upper as real || x <= (n - upper) as real
  }

  /** The boolean array `coll_decns`, as numpy averages it (1.0 / 0.0). */
  function Flags(X: seq<real>, n: int, upper: int): (f: seq<real>)
    ensures |f| == |X|
    ensures forall i :: 0 <= i < |X| ==> (f[i] == 1.0 <==> Decided(X[i], n, upper))
    ensures forall i :: 0 <= i < |X| ==> (f[i] == 0.0 <==> !Decided(X[i], n, upper))
  {
    seq(|X|, i requires 0 <= i < |X| => if Decided(X[i], n, upper) then 1.0 else 0.0)
  }

  /** The number of decided samples, counted independently of the flags. */
  function CountDecided(X: seq<real>, n: int, upper: int): (c: nat)
    ensures c <= |X|
  {
    if |X| == 0 then 0
    else (if Decided(X[0], n, upper) then 1 else 0) + CountDecided(X[1..], n, upper)
  }

  lemma FlagsTail(X: seq<real>, n: int, upper: int)
    requires |X| > 0
    ensures Flags(X, n, upper)[1..] == Flags(X[1..], n, upper)
  {
  }

  /** Summing the flags counts the decided samples. */
  lemma {:induction false} SumFlags(X: seq<real>, n: int, upper: int)
    ensures Sum(Flags(X, n, upper)) == CountDecided(X, n, upper) as real
    decreases |X|
  {
    if |X| > 0 {
      FlagsTail(X, n, upper);
      SumFlags(X[1..], n, upper);
    }
  }

  /** `cdi(X, n)`: the mean of the decision flags; an empty series has a NaN mean. */
  function Cdi(X: seq<real>, n: int): (r: Result<real, Error>)
    ensures r == Failure(InvalidArgument) <==> n < -1
    ensures r == Failure(NonFinite) <==> n >= -1 && |X| == 0
    ensures r.Success? <==> n >= -1 && |X| > 0
  {
    match UpperThreshold(n)
    case Failure(e) => Failure(e)
    case Success(upper) =>
      if |X| == 0 then Failure(NonFinite) else Success(Mean(Flags(X, n, upper)))
  }

  /** The cdi is the fraction of decided samples, hence lies in [0, 1]. */
  lemma CdiIsDecidedFraction(X: seq<real>, n: int)
    requires Cdi(X, n).Success?
    ensures UpperThreshold(n).Success?
    ensures Cdi(X, n).value == CountDecided(X, n, UpperThreshold(n).value) as real / |X| as real
    ensures 0.0 <= Cdi(X, n).value <= 1.0
  {
    var upper := UpperThreshold(n).value;
    SumFlags(X, n, upper);
    MeanBounds(Flags(X, n, upper), 0.0, 1.0);
  }

  /** Counting the other side of the arena: X |-> n - X. */
  function Mirror(X: seq<real>, n: int): (m: seq<real>)
    ensures |m| == |X|
    ensures forall i :: 0 <= i < |X| ==> m[i] + X[i] == n as real
  {
    seq(|X|, i requires 0 <= i < |X| => n as real - X[i])
  }

  lemma {:induction false} CountDecidedMirror(X: seq<real>, n: int, upper: int)
    ensures CountDecided(Mirror(X, n), n, upper) == CountDecided(X, n, upper)
    decreases |X|
  {
    if |X| > 0 {
      assert Mirror(X, n)[1..] == Mirror(X[1..], n);
      CountDecidedMirror(X[1..], n, upper);
    }
  }

  /** The index does not depend on which side is counted. */
  lemma CdiMirror(X: seq<real>, n: int)
    ensures Cdi(Mirror(X, n), n) == Cdi(X, n)
  {
    if Cdi(X, n).Success? {
      var upper := UpperThreshold(n).value;
      CdiIsDecidedFraction(X, n);
      CdiIsDecidedFraction(Mirror(X, n), n);
      CountDecidedMirror(X, n, upper);
    }
  }

  lemma {:induction false} CountAllDecided(X: seq<real>, n: int, upper: int)
    requires forall i :: 0 <= i < |X| ==> Decided(X[i], n, upper)
    ensures CountDecided(X, n, upper) == |X|
    decreases |X|
  {
    if |X| > 0 {
      CountAllDecided(X[1..], n, upper);
    }
  }

  lemma {:induction false} CountNoneDecided(X: seq<real>, n: int, upper: int)
    requires forall i :: 0 <= i < |X| ==> !Decided(X[i], n, upper)
    ensures CountDecided(X, n, upper) == 0
    decreases |X|
  {
    if |X| > 0 {
      CountNoneDecided(X[1..], n, upper);
    }
  }

  lemma {:induction false} CountDecidedAppend(A: seq<real>, B: seq<real>, n: int, upper: int)
    ensures CountDecided(A + B, n, upper) == CountDecided(A, n, upper) + CountDecided(B, n, upper)
    decreases |A|
  {
    if |A| == 0 {
      assert A + B == B;
    } else {
      assert (A + B)[1..] == A[1..] + B;
      CountDecidedAppend(A[1..], B, n, upper);
    }
  }

  /** Without a threshold (-1) every sample is decided: a count below -1
      is still at most n + 1, the lower bound n - (-1). */
  lemma CdiWithoutThreshold(X: seq<real>, n: int)
    requires UpperThreshold(n) == Success(-1)
    requires |X| > 0
    ensures Cdi(X, n) == Success(1.0)
  {
    CdiIsDecidedFraction(X, n);
    CountAllDecided(X, n, -1);
    DivideSelf(|X| as real);
  }

  lemma DivideSelf(m: real)
    requires m > 0.0
    ensures m / m == 1.0
  {
  }

  /** `cdi_for_period(X, n, plm, dt)`: the flags of the last int(plm * 60 / dt)
      samples, all of them when that count is 0 (Python's `[-0:]`). */
  function CdiForPeriod(X: seq<real>, n: int, plm: real, dt: real): (r: Result<real, Error>)
    ensures r == Failure(DivisionByZero) <==> dt == 0.0
  {
    if dt == 0.0 then Failure(DivisionByZero)
    else
      var k := Trunc(plm * 60.0 / dt);
      match UpperThreshold(n)
      case Failure(e) => Failure(e)
      case Success(upper) =>
        var window := Trailing(Flags(X, n, upper), k);
        if |window| == 0 then Failure(NonFinite) else Success(Mean(window))
  }

  /** The number of samples `cdi_for_period` looks at. */
  function PeriodSamples(plm: real, dt: real): int
    requires dt != 0.0
  {
    Trunc(plm * 60.0 / dt)
  }

  /** The period index is the ordinary index of the trailing window. */
  lemma CdiForPeriodIsCdiOfWindow(X: seq<real>, n: int, plm: real, dt: real)
    requires dt != 0.0
    ensures CdiForPeriod(X, n, plm, dt) == Cdi(Trailing(X, PeriodSamples(plm, dt)), n)
  {
    var k := PeriodSamples(plm, dt);
    if UpperThreshold(n).Success? {
      var upper := UpperThreshold(n).value;
      assert Trailing(Flags(X, n, upper), k) == Flags(Trailing(X, k), n, upper);
    }
  }

  /** A window of 0 samples, or of at least the whole series, is the whole series. */
  lemma CdiForPeriodWhole(X: seq<real>, n: int, plm: real, dt: real)
    requires dt != 0.0
    requires PeriodSamples(plm, dt) == 0 || PeriodSamples(plm, dt) >= |X|
    ensures CdiForPeriod(X, n, plm, dt) == Cdi(X, n)
  {
    CdiForPeriodIsCdiOfWindow(X, n, plm, dt);
  }

  /* ---- vol_step, volatility, _volatility_onefunc ---- */

  /** Python's index `i` into a sequence of length `len` (negative counts from the end). */
  function PyIndex(len: nat, i: int): int
  {
    if i < 0 then len + i else i
  }

  /** `vol_step(X, t, n)`: |X[t] - X[t + 1]| / n.  Indices at or past the
      last element raise; indices before the start raise IndexError; a
      population of zero gives a non-finite numpy value. */
  function VolStep(X: seq<real>, t: int, n: int): (r: Result<real, Error>)
    ensures r.Failure? <==> t >= |X| - 1 || t < -|X| || n == 0
    ensures r.Failure? && (t >= |X| - 1 || t < -|X|) ==> r.error == OutOfRange
    ensures 0 <= t && r.Success? ==> r.value * n as real == AbsReal(X[t] - X[t + 1])
    ensures t == -1 && r.Success? ==> r.value * n as real == AbsReal(X[|X| - 1] - X[0])
    ensures n > 0 && r.Success? ==> r.value >= 0.0
  {
    if t >= |X| - 1 || t < -|X| then Failure(OutOfRange)
    else if n == 0 then Failure(NonFinite)
    else Success(AbsReal(X[PyIndex(|X|, t)] - X[PyIndex(|X|, t + 1)]) / n as real)
  }

  /** The per-step scores `_V` accumulated by `volatility`. */
  function VolSteps(X: seq<real>, n: int): (v: seq<real>)
    requires |X| >= 1 && n != 0
    ensures |v| == |X| - 1
  {
    seq(|X| - 1, t requires 0 <= t < |X| - 1 => AbsReal(X[t] - X[t + 1]) / n as real)
  }

  /** Each accumulated score is what `vol_step` returns for that step. */
  lemma VolStepsAreVolSteps(X: seq<real>, n: int, t: nat)
    requires |X| >= 1 && n != 0 && t < |X| - 1
    ensures VolStep(X, t, n) == Success(VolSteps(X, n)[t])
  {
  }

  /** `volatility(X, n)`: the mean of the step scores (the source multiplies
      the sum by 1 / (len - 1), the same number in exact arithmetic). An empty series makes
      a negative array size, a single sample divides 1.0 by zero, and a zero
      population makes every score non-finite. */
  function Volatility(X: seq<real>, n: int): (r: Result<real, Error>)
    ensures r == Failure(InvalidArgument) <==> |X| == 0
    ensures r == Failure(DivisionByZero) <==> |X| == 1
    ensures r == Failure(NonFinite) <==> |X| >= 2 && n == 0
  {
    if |X| == 0 then Failure(InvalidArgument)
    else if |X| == 1 then Failure(DivisionByZero)
    else if n == 0 then Failure(NonFinite)
    else Success(Sum(VolSteps(X, n)) / (|X| as real - 1.0))
  }

  /** The total variation sum |X[t] - X[t + 1]| over all adjacent pairs. */
  function Variation(X: seq<real>): (v: real)
    ensures v >= 0.0
  {
    if |X| < 2 then 0.0 else AbsReal(X[0] - X[1]) + Variation(X[1..])
  }

  lemma DivideSum(a: real, b: real, n: real)
    requires n != 0.0
    ensures a / n + b / n == (a + b) / n
  {
  }

  lemma {:induction false} SumVolSteps(X: seq<real>, n: int)
    requires |X| >= 1 && n != 0
    ensures Sum(VolSteps(X, n)) == Variation(X) / n as real
    decreases |X|
  {
    if |X| >= 2 {
      assert VolSteps(X, n)[1..] == VolSteps(X[1..], n);
      SumVolSteps(X[1..], n);
      DivideSum(AbsReal(X[0] - X[1]), Variation(X[1..]), n as real);
    }
  }

  /** The volatility is the total variation normalised by the population and
      by the number of steps. */
  lemma VolatilityIsNormalisedVariation(X: seq<real>, n: int)
    requires |X| >= 2 && n != 0
    ensures Volatility(X, n).Success?
    ensures Volatility(X, n).value == Variation(X) / n as real / (|X| as real - 1.0)
  {
    SumVolSteps(X, n);
  }

  lemma {:induction false} VariationConstant(X: seq<real>)
    requires forall i :: 0 <= i < |X| ==> X[i] == X[0]
    ensures Variation(X) == 0.0
    decreases |X|
  {
    if |X| >= 2 {
      VariationConstant(X[1..]);
    }
  }

  /** Joining two series adds the step across the join. */
  lemma {:induction false} VariationAppend(A: seq<real>, B: seq<real>)
    requires |A| >= 1 && |B| >= 1
    ensures Variation(A + B) == Variation(A) + AbsReal(A[|A| - 1] - B[0]) + Variation(B)
    decreases |A|
  {
    if |A| == 1 {
      assert (A + B)[1..] == B;
    } else {
      assert (A + B)[1..] == A[1..] + B;
      VariationAppend(A[1..], B);
    }
  }

  lemma VariationUnfold(X: seq<real>)
    ensures Variation(X) == if |X| < 2 then 0.0 else AbsReal(X[0] - X[1]) + Variation(X[1..])
  {
  }

  /** Steps that all have size `d` add up to d per step. */
  lemma {:induction false} VariationUniform(X: seq<real>, d: real)
    requires |X| >= 1
    requires forall u :: 0 <= u < |X| - 1 ==> AbsReal(X[u] - X[u + 1]) == d
    ensures Variation(X) == (|X| - 1) as real * d
    decreases |X|
  {
    VariationUnfold(X);
    hide Variation;
    if |X| >= 2 {
      var Y := X[1..];
      forall u | 0 <= u < |Y| - 1
        ensures AbsReal(Y[u] - Y[u + 1]) == d
      {
        assert Y[u] == X[u + 1] && Y[u + 1] == X[u + 2];
      }
      VariationUniform(Y, d);
      assert AbsReal(X[0] - X[1]) == d;
      assert (|X| - 1) as real * d == d + (|Y| - 1) as real * d;
    }
  }

  /** A series that never changes has volatility zero. */
  lemma VolatilityConstant(X: seq<real>, n: int)
    requires |X| >= 2 && n != 0
    requires forall i :: 0 <= i < |X| ==> X[i] == X[0]
    ensures Volatility(X, n) == Success(0.0)
  {
    VolatilityIsNormalisedVariation(X, n);
    VariationConstant(X);
  }

  /** Counts within [0, n] move by at most n per step, so the index lies in [0, 1]. */
  lemma VolatilityBounds(X: seq<real>, n: int)
    requires |X| >= 2 && n > 0
    requires forall i :: 0 <= i < |X| ==> 0.0 <= X[i] <= n as real
    ensures Volatility(X, n).Success?
    ensures 0.0 <= Volatility(X, n).value <= 1.0
  {
    var V := VolSteps(X, n);
    forall t | 0 <= t < |V|
      ensures 0.0 <= V[t] <= 1.0
    {
      StepBound(X[t], X[t + 1], n as real, V[t]);
    }
    MeanBounds(V, 0.0, 1.0);
  }

  lemma StepBound(a: real, b: real, n: real, v: real)
    requires 0.0 <= a <= n && 0.0 <= b <= n && n > 0.0
    requires v == AbsReal(a - b) / n
    ensures 0.0 <= v <= 1.0
  {
    DivideBounds(AbsReal(a - b), n, 0.0, 1.0);
  }

  /** numpy's `ediff1d`: successive differences. */
  function Ediff(X: seq<real>): (d: seq<real>)
    ensures |d| == if |X| == 0 then 0 else |X| - 1
    ensures forall i :: 0 <= i < |d| ==> d[i] == X[i + 1] - X[i]
  {
    if |X| == 0 then [] else seq(|X| - 1, i requires 0 <= i < |X| - 1 => X[i + 1] - X[i])
  }

  /** Element-wise `np.abs`. */
  function AbsAll(s: seq<real>): (a: seq<real>)
    ensures |a| == |s|
    ensures forall i :: 0 <= i < |s| ==> a[i] == AbsReal(s[i])
  {
    seq(|s|, i requires 0 <= i < |s| => AbsReal(s[i]))
  }

  lemma {:induction false} SumAbsEdiff(X: seq<real>)
    ensures Sum(AbsAll(Ediff(X))) == Variation(X)
    decreases |X|
  {
    if |X| >= 2 {
      assert AbsAll(Ediff(X))[1..] == AbsAll(Ediff(X[1..]));
      SumAbsEdiff(X[1..]);
    }
  }

  /** `_volatility_onefunc(X, n)` as written: the divisor `float(n * len(X) - 1)`
      multiplies before subtracting.  numpy divides by zero without raising. */
  function VolatilityOneFunc(X: seq<real>, n: int): (r: Result<real, Error>)
    ensures r.Failure? <==> n * |X| == 1
  {
    var divisor := n * |X| - 1;
    if divisor == 0 then Failure(NonFinite)
    else Success(Sum(AbsAll(Ediff(X))) / divisor as real)
  }

  /** What `_volatility_onefunc` computes: variation over n * len(X) - 1. */
  lemma VolatilityOneFuncAsWritten(X: seq<real>, n: int)
    requires n * |X| != 1
    ensures VolatilityOneFunc(X, n) == Success(Variation(X) / (n * |X| - 1) as real)
  {
    SumAbsEdiff(X);
  }

  /** `_volatility_onefunc` with the divisor its docstring intends, n * (len(X) - 1). */
  function VolatilityOneFuncIntended(X: seq<real>, n: int): (r: Result<real, Error>)
    ensures r.Failure? <==> n * (|X| - 1) == 0
  {
    var divisor := n * (|X| - 1);
    if divisor == 0 then Failure(NonFinite)
    else Success(Sum(AbsAll(Ediff(X))) / divisor as real)
  }

  /** With the intended divisor the one-line form agrees with `volatility`. */
  lemma VolatilityOneFuncIntendedAgrees(X: seq<real>, n: int)
    requires |X| >= 2 && n != 0
    ensures VolatilityOneFuncIntended(X, n) == Volatility(X, n)
  {
    SumAbsEdiff(X);
    VolatilityIsNormalisedVariation(X, n);
    DivideByProduct(Variation(X), n, |X| - 1);
  }

  lemma DivideByProduct(V: real, a: int, b: int)
    requires a != 0 && b != 0
    ensures V / (a * b) as real == V / a as real / b as real
  {
    var x, y := a as real, b as real;
    var q := V / x / y;
    assert q * y == V / x;
    assert q * y * x == V;
    assert (a * b) as real == x * y;
    assert q * (x * y) == V;
    Cancel(V, x * y, q);
  }

  /** Dividing undoes multiplying by a non-zero factor. */
  lemma Cancel(V: real, z: real, q: real)
    requires z != 0.0 && q * z == V
    ensures q == V / z
  {
  }

  /* ---- identify_winner ---- */

  /** One row of the count log: time, count on the left, count on the right. */
  datatype Row = Row(time: real, left: real, right: real)

  datatype Side = L | R

  datatype Verdict = Verdict(winner: Side, winfrac: seq<real>)

  function Times(d: seq<Row>): (t: seq<real>)
    ensures |t| == |d| && forall i :: 0 <= i < |d| ==> t[i] == d[i].time
  {
    seq(|d|, i requires 0 <= i < |d| => d[i].time)
  }

  function Lefts(d: seq<Row>): (c: seq<real>)
    ensures |c| == |d| && forall i :: 0 <= i < |d| ==> c[i] == d[i].left
  {
    seq(|d|, i requires 0 <= i < |d| => d[i].left)
  }

  function Rights(d: seq<Row>): (c: seq<real>)
    ensures |c| == |d| && forall i :: 0 <= i < |d| ==> c[i] == d[i].right
  {
    seq(|d|, i requires 0 <= i < |d| => d[i].right)
  }

  /** `_dt[_dt > 0]`: the strictly positive entries, in order. */
  function Positives(s: seq<real>): (p: seq<real>)
    ensures forall x :: x in p <==> x in s && x > 0.0
  {
    if |s| == 0 then []
    else (if s[0] > 0.0 then [s[0]] else []) + Positives(s[1..])
  }

  /** How often `v` occurs in `s`. */
  function Occurrences(s: seq<real>, v: real): nat
  {
    if |s| == 0 then 0 else (if s[0] == v then 1 else 0) + Occurrences(s[1..], v)
  }

  /** `a` is at least as frequent in `s` as `b`, and not larger on a tie. */
  predicate Preferred(s: seq<real>, a: real, b: real)
  {
    Occurrences(s, a) > Occurrences(s, b) || (Occurrences(s, a) == Occurrences(s, b) && a <= b)
  }

  /** The mode among the entries s[i..], counted over the whole of `s`. */
  function ModeFrom(s: seq<real>, i: nat): (m: real)
    requires i < |s|
    decreases |s| - i
    ensures exists j :: i <= j < |s| && s[j] == m
    ensures forall j :: i <= j < |s| ==> Preferred(s, m, s[j])
  {
    if i == |s| - 1 then s[i]
    else
      var rest := ModeFrom(s, i + 1);
      if Preferred(s, s[i], rest) then s[i] else rest
  }

  /** `scipy.stats.mode`: the most frequent value, the smallest one on ties. */
  function Mode(s: seq<real>): (m: real)
    requires |s| > 0
    ensures m in s
    ensures forall v :: v in s ==> Occurrences(s, v) <= Occurrences(s, m)
    ensures forall v :: v in s && Occurrences(s, v) == Occurrences(s, m) ==> m <= v
  {
    var m := ModeFrom(s, 0);
    assert forall v :: v in s ==> Preferred(s, m, v) by {
      forall v | v in s
        ensures Preferred(s, m, v)
      {
        var j :| 0 <= j < |s| && s[j] == v;
      }
    }
    m
  }

  /** The sampling interval: the most frequent positive time step. Without
      any, scipy's mode is empty and `int()` of its NaN mean raises. */
  function SampleInterval(d: seq<Row>): (r: Result<real, Error>)
    ensures r.Success? ==> r.value > 0.0 && r.value in Ediff(Times(d))
    ensures r.Failure? <==> forall x :: x in Ediff(Times(d)) ==> x <= 0.0
  {
    var pos := Positives(Ediff(Times(d)));
    if |pos| == 0 then Failure(InvalidArgument) else Success(Mode(pos))
  }

  /** The rows `identify_winner` judges: the last int(plm * 60 / interval). */
  function LateRows(d: seq<Row>, plm: real, interval: real): (late: seq<Row>)
    requires interval > 0.0
    ensures |late| <= |d| && late == d[|d| - |late|..]
    ensures var k := Trunc(plm * 60.0 / interval);
      (k == 0 || k >= |d| ==> late == d) && (0 < k < |d| ==> |late| == k)
  {
    Trailing(d, Trunc(plm * 60.0 / interval))
  }

  /** "R" exactly when the right side's mean over the late rows is strictly
      larger; an empty window has NaN means, and NaN > NaN is false. */
  function Judge(late: seq<Row>): (side: Side)
    ensures side == R <==> |late| > 0 && Sum(Rights(late)) > Sum(Lefts(late))
  {
    if |late| > 0 then
      DivideMonotone(Sum(Rights(late)), Sum(Lefts(late)), |late| as real);
      if Mean(Rights(late)) > Mean(Lefts(late)) then R else L
    else L
  }

  /** The winner's column over the whole log, as a fraction of the population. */
  function Fractions(d: seq<Row>, side: Side, nbees: int): (f: seq<real>)
    requires nbees != 0
    ensures |f| == |d|
    ensures forall i :: 0 <= i < |d| ==>
              f[i] * nbees as real == (if side == L then d[i].left else d[i].right)
  {
    seq(|d|, i requires 0 <= i < |d| => (if side == L then d[i].left else d[i].right) / nbees as real)
  }

  /** `identify_winner(d, nbees, plm)`: the winning side and the winner's
      column over the whole log divided by the population (every entry
      non-finite when the population is zero). */
  function IdentifyWinner(d: seq<Row>, nbees: int, plm: real): (r: Result<Verdict, Error>)
    ensures r.Failure? <==> SampleInterval(d).Failure? || nbees == 0
    ensures r.Success? ==> r.value.winner == Judge(LateRows(d, plm, SampleInterval(d).value))
    ensures r.Success? ==> r.value.winfrac == Fractions(d, r.value.winner, nbees)
  {
    match SampleInterval(d)
    case Failure(e) => Failure(e)
    case Success(interval) =>
      if nbees == 0 then Failure(NonFinite)
      else
        var winner := Judge(LateRows(d, plm, interval));
        Success(Verdict(winner, Fractions(d, winner, nbees)))
  }

  lemma DivideMonotone(a: real, b: real, m: real)
    requires m > 0.0
    ensures a / m > b / m <==> a > b
  {
  }

  /** The right side wins exactly when it holds strictly more animals in total
      over the late window; ties go to the left. */
  lemma WinnerIsLargerSum(d: seq<Row>, nbees: int, plm: real)
    requires exists i :: 0 <= i < |d| - 1 && d[i].time < d[i + 1].time
    requires nbees != 0
    ensures IdentifyWinner(d, nbees, plm).Success?
    ensures var late := LateRows(d, plm, SampleInterval(d).value);
            IdentifyWinner(d, nbees, plm).value.winner == R
            <==> |late| > 0 && Sum(Rights(late)) > Sum(Lefts(late))
  {
    IntervalExists(d);
    hide IdentifyWinner, LateRows, Fractions, Mode, Positives;
    var late := LateRows(d, plm, SampleInterval(d).value);
    if |late| > 0 {
      DivideMonotone(Sum(Rights(late)), Sum(Lefts(late)), |late| as real);
    }
  }

  /** A log with a strictly increasing step has a sampling interval. */
  lemma IntervalExists(d: seq<Row>)
    requires exists i :: 0 <= i < |d| - 1 && d[i].time < d[i + 1].time
    ensures SampleInterval(d).Success?
  {
    var i :| 0 <= i < |d| - 1 && d[i].time < d[i + 1].time;
    var e := Ediff(Times(d));
    assert e[i] == d[i + 1].time - d[i].time;
    assert e[i] in e;
  }

  /** A window count of 0 (or of at least every row) judges the whole log. */
  lemma WinnerWholeLog(d: seq<Row>, plm: real, interval: real)
    requires interval > 0.0
    requires Trunc(plm * 60.0 / interval) == 0 || Trunc(plm * 60.0 / interval) >= |d|
    ensures LateRows(d, plm, interval) == d
  {
  }
}

=== FILE: example_series.dfy ===
/** The example count series shared by the cdi and volatility demonstrations:
    a population of `n` animals, each series one count per time step. */
module ExampleSeries {

  /** `[n, 0, n, 0, ...]`, 18 samples: a full swing every step. */
  function Losc1(n: int): seq<real>
  {
    seq(18, i => if i % 2 == 0 then n as real else 0.0)
  }

  /** `[a, a, b, b, a, a, ...]` of length `k`: a swing every other step. */
  function TwoLevel(a: real, b: real, k: nat): seq<real>
  {
    seq(k, i => if i % 4 < 2 then a else b)
  }

  /** Losc2: 50 samples swinging fully every other step. */
  function Losc2(n: int): seq<real>
  {
    TwoLevel(n as real, 0.0, 50)
  }

  /** Losc3: 20 samples moving between n and n/2 (Python 2 integer division). */
  function Losc3(n: int): seq<real>
  {
    TwoLevel(n as real, (n / 2) as real, 20)
  }

  /** L1ramp: 0, 1, ..., n, then n until 50 samples. */
  function L1ramp(n: int): seq<real>
  {
    seq(50, i => if i <= n then i as real else n as real)
  }

  /** L1step: n for 25 samples, then 0 for 25. */
  function L1step(n: int): seq<real>
  {
    seq(50, i => if i < 25 then n as real else 0.0)
  }

  /** L2: n for 20 samples, 0 for 5, n for the last 25. */
  function L2(n: int): seq<real>
  {
    seq(50, i => if 20 <= i < 25 then 0.0 else n as real)
  }

  /** 50 samples all equal to `v`: Cn, Cn2, C0 and Csub_th. */
  function Constant(v: real): seq<real>
  {
    seq(50, _ => v)
  }

  /** n/2 until `onset`, then n: the decision-speed series Dfast (5), Dmid (25), Dslow (40). */
  function Onset(n: int, onset: nat): seq<real>
  {
    seq(50, i => if i < onset then (n / 2) as real else n as real)
  }
}

=== FILE: libinfo.dfy ===
/** `slide_te_grp`: the transfer-entropy lag sweep.

    The JIDT calculator is a foreign Java object; it is modelled as an
    oracle that sees the whole sequence of calls made on it so far and
    answers the latest one either with a number or by raising.  The sweep
    itself is a fold over the lags that carries the result arrays, the
    `calc_OK` flag and the calls made. */
module LibInfo {
  import opened Wrappers
  import opened Numeric
  import opened Text

  type Series = seq<real>

  /** The calculator methods the sweep uses. */
  datatype Call =
    | SetProperty(name: string, value: string)
    | Initialise
    | StartAddObservations
    | AddObservations(source: Series, destination: Series)
    | FinaliseAddObservations
    | ComputeAverageLocal
    | ComputeSignificance(samples: int)

  /** What a call does: return a number (ignored for the set-up calls) or raise. */
  datatype Outcome = Returned(value: real) | Raised

  /** The calculator: the outcome of the last call of every call history. */
  type Calculator = seq<Call> -> Outcome

  /** The keyword arguments `prop`, `k`, `l` and `samples`. */
  datatype Config = Config(prop: string, k: int, l: int, samples: int)

  /** One call to `slide_te_grp`. */
  datatype Job = Job(calculator: Calculator, lags: seq<int>, d1: seq<Series>, d2: seq<Series>, cfg: Config)

  /** The observation pairs of lag `L`, in `zip` order and truncated to the
      shorter ensemble; a negative lag swaps source and destination. */
  function Pairs(L: int, d1: seq<Series>, d2: seq<Series>): (calls: seq<Call>)
    ensures |calls| == Min(|d1|, |d2|)
    ensures forall j :: 0 <= j < |calls| ==>
      calls[j] == if L < 0 then AddObservations(d2[j], d1[j]) else AddObservations(d1[j], d2[j])
  {
    seq(Min(|d1|, |d2|), j requires 0 <= j < Min(|d1|, |d2|) =>
      if L < 0 then AddObservations(d2[j], d1[j]) else AddObservations(d1[j], d2[j]))
  }

  /** Every call the sweep makes for lag `L`, when none of them raises. */
  function Protocol(L: int, job: Job): (calls: seq<Call>)
    ensures |calls| == 8 + Min(|job.d1|, |job.d2|)
    ensures calls[0] == SetProperty(job.cfg.prop, IntString(Abs(L)))
    ensures calls[1] == SetProperty("l_HISTORY", IntString(job.cfg.l))
    ensures calls[2] == SetProperty("k_HISTORY", IntString(job.cfg.k))
    ensures calls[3] == Initialise && calls[4] == StartAddObservations
    ensures calls[5..|calls| - 3] == Pairs(L, job.d1, job.d2)
    ensures calls[|calls| - 3] == FinaliseAddObservations
    ensures calls[|calls| - 2] == ComputeAverageLocal
    ensures calls[|calls| - 1] == ComputeSignificance(job.cfg.samples)
  {
    var setup := [SetProperty(job.cfg.prop, IntString(Abs(L))),
                  SetProperty("l_HISTORY", IntString(job.cfg.l)),
                  SetProperty("k_HISTORY", IntString(job.cfg.k)),
                  Initialise, StartAddObservations];
    var pairs := Pairs(L, job.d1, job.d2);
    var calls := setup + pairs + [FinaliseAddObservations, ComputeAverageLocal, ComputeSignificance(job.cfg.samples)];
    assert calls[5..|calls| - 3] == pairs;
    calls
  }

  datatype Performed = Performed(history: seq<Call>, completed: bool)

  /** Make the calls in order, stopping at the first one that raises. */
  function Perform(calculator: Calculator, h: seq<Call>, calls: seq<Call>): (r: Performed)
    decreases |calls|
    ensures |h| <= |r.history| <= |h| + |calls|
    ensures r.history == h + calls[..|r.history| - |h|]
    ensures forall m :: |h| < m < |r.history| ==> calculator(r.history[..m]).Returned?
    ensures r.completed <==> |r.history| == |h| + |calls| && (|calls| == 0 || calculator(r.history).Returned?)
    ensures !r.completed ==> |r.history| > |h| && calculator(r.history).Raised?
  {
    if |calls| == 0 then Performed(h, true)
    else
      var next := h + [calls[0]];
      if calculator(next).Raised? then Performed(next, false)
      else
        var r := Perform(calculator, next, calls[1..]);
        assert calls[1..][..|r.history| - |next|] == calls[1..|r.history| - |h|];
        assert r.history[..|next|] == next;
        r
  }

  /** What one lag contributes: the calls made, and the estimate and
      p-value when those calls returned. */
  datatype Attempt = Attempt(history: seq<Call>, te: Option<real>, pValue: Option<real>)

  /** The body of the `try` for one lag. */
  function TryLag(job: Job, h: seq<Call>, L: int): (a: Attempt)
    ensures var p := Protocol(L, job);
      |h| < |a.history| <= |h| + |p| && a.history == h + p[..|a.history| - |h|]
    ensures a.pValue.Some? ==> a.te.Some?
    ensures |a.history| == |h| + |Protocol(L, job)| ==> a.te.Some?
    ensures a.pValue.Some? <==> |a.history| == |h| + |Protocol(L, job)| && job.calculator(a.history).Returned?
    ensures a.pValue.None? ==> job.calculator(a.history).Raised?
    ensures a.pValue.Some? ==> job.calculator(a.history) == Returned(a.pValue.value)
    ensures a.te.Some? ==>
      (|a.history| >= |h| + |Protocol(L, job)| - 1 &&
       job.calculator(a.history[..|h| + |Protocol(L, job)| - 1]) == Returned(a.te.value))
  {
    var p := Protocol(L, job);
    var setup := Perform(job.calculator, h, p[..|p| - 2]);
    if !setup.completed then
      Attempt(setup.history, None, None)
    else
      assert setup.history == h + p[..|p| - 2];
      var h2 := setup.history + [ComputeAverageLocal];
      assert h2 == h + p[..|p| - 1];
      match job.calculator(h2)
      case Raised => Attempt(h2, None, None)
      case Returned(te) =>
        var h3 := h2 + [ComputeSignificance(job.cfg.samples)];
        assert h3 == h + p;
        assert h3[..|h| + |p| - 1] == h2;
        match job.calculator(h3)
        case Raised => Attempt(h3, Some(te), None)
        case Returned(pv) => Attempt(h3, Some(te), Some(pv))
  }

  /** The state the sweep carries from lag to lag. */
  datatype Sweep = Sweep(r: seq<real>, p: seq<real>, ok: bool, history: seq<Call>)

  /** `numpy.zeros_like(lrng)`, `numpy.ones_like(lrng)`, `calc_OK = True`. */
  function Initial(n: nat): (s: Sweep)
    ensures |s.r| == n && |s.p| == n && s.ok && s.history == []
    ensures forall j :: 0 <= j < n ==> s.r[j] == 0.0 && s.p[j] == 1.0
  {
    Sweep(seq(n, _ => 0.0), seq(n, _ => 1.0), true, [])
  }

  /** One pass of the loop body, for lag number `i`. */
  function Step(job: Job, i: nat, s: Sweep): (t: Sweep)
    requires i < |job.lags| && |s.r| == |job.lags| && |s.p| == |job.lags|
    ensures |t.r| == |job.lags| && |t.p| == |job.lags|
    ensures forall j :: 0 <= j < |job.lags| && j != i ==> t.r[j] == s.r[j] && t.p[j] == s.p[j]
    ensures !s.ok ==> t == s
    ensures t.ok ==> s.ok
  {
    if !s.ok then s
    else
      var a := TryLag(job, s.history, job.lags[i]);
      Sweep(if a.te.Some? then s.r[i := a.te.value] else s.r,
            if a.pValue.Some? then s.p[i := a.pValue.value] else s.p,
            a.pValue.Some?,
            a.history)
  }

  /** The state after the first `n` lags. */
  function After(job: Job, n: nat): (s: Sweep)
    requires n <= |job.lags|
    ensures |s.r| == |job.lags| && |s.p| == |job.lags|
  {
    if n == 0 then Initial(|job.lags|) else Step(job, n - 1, After(job, n - 1))
  }

  datatype Estimates = Estimates(r: seq<real>, p: seq<real>)

  /** `slide_te_grp(calc, lrng, D1, D2, samples, prop=..., k=..., l=...)`. */
  function SlideTeGrp(job: Job): (e: Estimates)
    ensures |e.r| == |job.lags| && |e.p| == |job.lags|
  {
    var s := After(job, |job.lags|);
    Estimates(s.r, s.p)
  }

  /** `slide_te_grp` with `verb` set, as written: the progress line after each
      lag has three format fields but two arguments, so `str.format` raises
      IndexError outside the `try` once the first lag is done. */
  function SlideTeGrpVerboseAsWritten(job: Job, verb: bool): (r: Result<Estimates, Error>)
    ensures r.Failure? <==> verb && |job.lags| > 0
    ensures r.Failure? ==> r.error == OutOfRange
    ensures r.Success? ==> r.value == SlideTeGrp(job)
  {
    if verb && |job.lags| > 0 then Failure(OutOfRange) else Success(SlideTeGrp(job))
  }

  /** Turning on the progress output loses every result of a non-empty sweep. */
  lemma VerboseSweepRaises(job: Job)
    requires |job.lags| > 0
    ensures SlideTeGrpVerboseAsWritten(job, true).Failure?
    ensures SlideTeGrpVerboseAsWritten(job, false) == Success(SlideTeGrp(job))
  {
  }

  /** `slide_te_grp` with the progress line formatting the lag, the estimate
      and the p-value, as its three fields suggest: output only. */
  function SlideTeGrpVerbose(job: Job, verb: bool): (r: Result<Estimates, Error>)
    ensures r.Success?
  {
    Success(SlideTeGrp(job))
  }

  /** With the corrected progress line the results do not depend on `verb`,
      and every entry is what the silent sweep computes. */
  lemma VerboseIsSilent(job: Job)
    ensures SlideTeGrpVerbose(job, true) == SlideTeGrpVerbose(job, false)
    ensures SlideTeGrpVerbose(job, true).value.r == After(job, |job.lags|).r
    ensures SlideTeGrpVerbose(job, true).value.p == After(job, |job.lags|).p
  {
  }

  /** Lags not yet reached keep their initial 0.0 and 1.0. */
  lemma {:induction false} UntouchedAhead(job: Job, n: nat, j: nat)
    requires n <= j < |job.lags|
    ensures After(job, n).r[j] == 0.0 && After(job, n).p[j] == 1.0
  {
    hide Step;
    if n > 0 {
      UntouchedAhead(job, n - 1, j);
    }
  }

  /** An entry is never modified again after its own lag. */
  lemma {:induction false} SettledBehind(job: Job, n: nat, m: nat, j: nat)
    requires j < n <= m <= |job.lags|
    ensures After(job, m).r[j] == After(job, n).r[j]
    ensures After(job, m).p[j] == After(job, n).p[j]
  {
    hide Step;
    if m > n {
      SettledBehind(job, n, m - 1, j);
    }
  }

  /** After the first failure nothing changes: no further calls reach the
      calculator and every later entry keeps 0.0 and 1.0. */
  lemma {:induction false} FailureSticky(job: Job, n: nat, m: nat)
    requires n <= m <= |job.lags|
    requires !After(job, n).ok
    ensures After(job, m) == After(job, n)
  {
    hide Step;
    if m > n {
      FailureSticky(job, n, m - 1);
    }
  }

  /** `calc_OK` only ever goes from true to false. */
  lemma {:induction false} OkOnlyFalls(job: Job, n: nat, m: nat)
    requires n <= m <= |job.lags|
    requires After(job, m).ok
    ensures After(job, n).ok
  {
    hide Step;
    if m > n {
      OkOnlyFalls(job, n, m - 1);
    }
  }

  /** What lag `i` leaves behind when it is attempted: its calls are a
      non-empty prefix of the protocol; the estimate is stored once
      `computeAverageLocalOfObservations` returns and the p-value once
      `computeSignificance` returns; a failure of `computeSignificance`
      therefore leaves the estimate stored and the p-value at 1.0. */
  lemma LagEntry(job: Job, i: nat)
    requires i < |job.lags| && After(job, i).ok
    ensures var s, t := After(job, i), After(job, i + 1);
      var a := TryLag(job, s.history, job.lags[i]);
      t.r[i] == (if a.te.Some? then a.te.value else 0.0) &&
      t.p[i] == (if a.pValue.Some? then a.pValue.value else 1.0) &&
      t.ok == a.pValue.Some? &&
      t.history == a.history
  {
    UntouchedAhead(job, i, i);
  }

  /** When every call of lag `i` up to `computeAverageLocalOfObservations`
      returns and `computeSignificance` raises, the estimate is kept, the
      p-value stays 1.0 and `calc_OK` turns false. */
  lemma SignificanceFailure(job: Job, i: nat)
    requires i < |job.lags| && After(job, i).ok
    requires var h, p := After(job, i).history, Protocol(job.lags[i], job);
      forall m :: |h| < m < |h| + |p| ==> job.calculator((h + p)[..m]).Returned?
    requires job.calculator(After(job, i).history + Protocol(job.lags[i], job)).Raised?
    ensures var h, p := After(job, i).history, Protocol(job.lags[i], job);
      var t := After(job, i + 1);
      !t.ok && t.history == h + p && t.p[i] == 1.0 &&
      t.r[i] == job.calculator((h + p)[..|h| + |p| - 1]).value
  {
    LagEntry(job, i);
    TryLagSignificanceFails(job, After(job, i).history, job.lags[i]);
  }

  lemma TryLagSignificanceFails(job: Job, h: seq<Call>, L: int)
    requires var p := Protocol(L, job);
      forall m :: |h| < m < |h| + |p| ==> job.calculator((h + p)[..m]).Returned?
    requires job.calculator(h + Protocol(L, job)).Raised?
    ensures var p, a := Protocol(L, job), TryLag(job, h, L);
      a.history == h + p && a.pValue.None? && a.te.Some? &&
      a.te.value == job.calculator((h + p)[..|h| + |p| - 1]).value
  {
    var p := Protocol(L, job);
    var a := TryLag(job, h, L);
    hide TryLag, Protocol;
    var k := |a.history| - |h|;
    assert a.history == (h + p)[..|h| + k];
    assert a.history == h + p;
  }

  /** The calls of a whole run of lags, when none raises. */
  function Protocols(job: Job, n: nat): seq<Call>
    requires n <= |job.lags|
  {
    if n == 0 then [] else Protocols(job, n - 1) + Protocol(job.lags[n - 1], job)
  }

  /** With a calculator that never raises, a lag makes its whole protocol. */
  lemma LagCompletes(job: Job, h: seq<Call>, L: int)
    requires forall h' :: job.calculator(h').Returned?
    ensures var a := TryLag(job, h, L);
      a.pValue.Some? && a.history == h + Protocol(L, job) &&
      a.pValue.value == job.calculator(h + Protocol(L, job)).value &&
      a.te == Some(job.calculator((h + Protocol(L, job))[..|h| + |Protocol(L, job)| - 1]).value)
  {
    var a := TryLag(job, h, L);
    assert job.calculator(a.history).Returned?;
  }

  /** A calculator that never raises receives, for each lag in turn, exactly
      the full protocol, and every p-value is what the calculator returned
      to that lag's `computeSignificance`. */
  lemma {:induction false} NeverRaising(job: Job, n: nat)
    requires n <= |job.lags|
    requires forall h :: job.calculator(h).Returned?
    ensures After(job, n).ok
    ensures After(job, n).history == Protocols(job, n)
    ensures forall i :: 0 <= i < n ==>
      After(job, n).p[i] == job.calculator(Protocols(job, i + 1)).value
  {
    hide Step, TryLag, Protocol, Perform, After, Protocols;
    if n == 0 {
      AfterInitial(job);
      ProtocolsStep(job, n);
    } else {
      NeverRaising(job, n - 1);
      var s := After(job, n - 1);
      StepCompletes(job, n - 1, s);
      AfterStep(job, n);
      ProtocolsStep(job, n);
      forall i | 0 <= i < n
        ensures After(job, n).p[i] == job.calculator(Protocols(job, i + 1)).value
      {
        if i < n - 1 {
          SettledBehind(job, n - 1, n, i);
        }
      }
    }
  }

  /** Under a calculator that never raises, every estimate R[i] is what the
      calculator returned to lag `i`'s `computeAverageLocalOfObservations`,
      the call just before its `computeSignificance`. */
  lemma NeverRaisingEstimates(job: Job, n: nat, i: nat)
    requires i < n <= |job.lags|
    requires forall h :: job.calculator(h).Returned?
    ensures var h := Protocols(job, i + 1);
      |h| > 0 && After(job, n).r[i] == job.calculator(h[..|h| - 1]).value
  {
    hide Step, TryLag, Protocol, Perform, After, Protocols;
    var s := After(job, i);
    NeverRaising(job, i);
    var h := s.history + Protocol(job.lags[i], job);
    StepCompletes(job, i, s);
    assert After(job, i + 1).r[i] == job.calculator(h[..|h| - 1]).value by {
      AfterStep(job, i + 1);
    }
    assert Protocols(job, i + 1) == h by {
      ProtocolsStep(job, i + 1);
    }
    SettledBehind(job, i + 1, n, i);
  }

  lemma AfterInitial(job: Job)
    ensures After(job, 0) == Initial(|job.lags|)
  {
  }

  lemma ProtocolsStep(job: Job, n: nat)
    requires n <= |job.lags|
    ensures Protocols(job, n) == if n == 0 then [] else Protocols(job, n - 1) + Protocol(job.lags[n - 1], job)
  {
  }

  lemma AfterStep(job: Job, n: nat)
    requires 0 < n <= |job.lags|
    ensures After(job, n) == Step(job, n - 1, After(job, n - 1))
  {
  }

  lemma StepCompletes(job: Job, i: nat, s: Sweep)
    requires i < |job.lags| && |s.r| == |job.lags| && |s.p| == |job.lags| && s.ok
    requires forall h :: job.calculator(h).Returned?
    ensures var t := Step(job, i, s); var h := s.history + Protocol(job.lags[i], job);
      t.ok && t.history == h && t.p[i] == job.calculator(h).value &&
      t.r[i] == job.calculator(h[..|h| - 1]).value
  {
    LagCompletes(job, s.history, job.lags[i]);
  }
}

=== FILE: numeric.dfy ===
/** Exact-arithmetic stand-ins for the Python and numpy primitives the
    analysis code leans on: sums and means of arrays, `int()` truncation,
    `ceil`, and Python's clamping slice semantics. */
module Numeric {

  function Abs(x: int): (r: nat)
    ensures r == x || r == -x
  {
    if x < 0 then -x else x
  }

  function AbsReal(x: real): (r: real)
    ensures r >= 0.0 && (r == x || r == -x)
  {
    if x < 0.0 then -x else x
  }

  function Min(a: int, b: int): int { if a <= b then a else b }

  /** `numpy.sum` of a real array. */
  function Sum(s: seq<real>): real
  {
    if |s| == 0 then 0.0 else s[0] + Sum(s[1..])
  }

  lemma {:induction false} SumAppend(a: seq<real>, b: seq<real>)
    ensures Sum(a + b) == Sum(a) + Sum(b)
    decreases |a|
  {
    if |a| == 0 {
      assert a + b == b;
    } else {
      assert (a + b)[1..] == a[1..] + b;
      SumAppend(a[1..], b);
    }
  }

  /** Summing is linear: a constant factor can be taken out of the sum. */
  function Scale(s: seq<real>, c: real): (r: seq<real>)
    ensures |r| == |s| && forall i :: 0 <= i < |s| ==> r[i] == s[i] * c
  {
    seq(|s|, i requires 0 <= i < |s| => s[i] * c)
  }

  lemma ScaleTail(s: seq<real>, c: real)
    requires |s| > 0
    ensures Scale(s, c)[1..] == Scale(s[1..], c)
  {
    assert forall i :: 0 <= i < |s| - 1 ==> Scale(s, c)[1..][i] == Scale(s[1..], c)[i];
  }

  lemma {:induction false} SumScale(s: seq<real>, c: real)
    ensures Sum(Scale(s, c)) == Sum(s) * c
    decreases |s|
  {
    if |s| > 0 {
      ScaleTail(s, c);
      SumScale(s[1..], c);
      Distribute(s[0], Sum(s[1..]), c);
    }
  }

  lemma Distribute(a: real, b: real, c: real)
    ensures a * c + b * c == (a + b) * c
  {
  }

  lemma {:induction false} SumBounds(s: seq<real>, lo: real, hi: real)
    requires forall i :: 0 <= i < |s| ==> lo <= s[i] <= hi
    ensures |s| as real * lo <= Sum(s) <= |s| as real * hi
    decreases |s|
  {
    if |s| > 0 {
      SumBounds(s[1..], lo, hi);
    }
  }

  lemma {:induction false} SumConst(k: nat, v: real)
    ensures Sum(seq(k, _ => v)) == k as real * v
  {
    if k > 0 {
      assert seq(k, _ => v)[1..] == seq(k - 1, _ => v);
      SumConst(k - 1, v);
    }
  }

  /** `numpy.mean` of a non-empty array. */
  function Mean(s: seq<real>): real
    requires |s| > 0
  {
    Sum(s) / |s| as real
  }

  /** A mean lies between the smallest and the largest possible element. */
  lemma MeanBounds(s: seq<real>, lo: real, hi: real)
    requires |s| > 0
    requires forall i :: 0 <= i < |s| ==> lo <= s[i] <= hi
    ensures lo <= Mean(s) <= hi
  {
    SumBounds(s, lo, hi);
    DivideBounds(Sum(s), |s| as real, lo, hi);
  }

  lemma DivideBounds(a: real, n: real, lo: real, hi: real)
    requires n > 0.0 && n * lo <= a <= n * hi
    ensures lo <= a / n <= hi
  {
    assert lo == (n * lo) / n && hi == (n * hi) / n;
  }

  /** Python's `int(x)` on a float: truncation toward zero. */
  function Trunc(x: real): (r: int)
    ensures x >= 0.0 ==> r as real <= x < r as real + 1.0
    ensures x < 0.0 ==> r as real - 1.0 < x <= r as real
  {
    if x >= 0.0 then x.Floor else -((-x).Floor)
  }

  /** `numpy.ceil`, taken to an integer. */
  function Ceil(x: real): (r: int)
    ensures r as real - 1.0 < x <= r as real
  {
    -((-x).Floor)
  }

  /** The position Python gives a slice bound `i` on a sequence of length
      `len`: negative bounds count from the end, and both are clamped. */
  function SliceIndex(len: nat, i: int): (r: nat)
    ensures r <= len
    ensures 0 <= i <= len ==> r == i
    ensures -(len as int) <= i < 0 ==> r == len + i
    ensures i < -(len as int) ==> r == 0
    ensures i > len ==> r == len
  {
    if i < 0 then (if len + i < 0 then 0 else len + i)
    else if i > len then len else i
  }

  /** Python's `s[a:b]`. */
  function Slice<T>(s: seq<T>, a: int, b: int): (r: seq<T>)
    ensures SliceIndex(|s|, a) <= SliceIndex(|s|, b) ==> r == s[SliceIndex(|s|, a)..SliceIndex(|s|, b)]
    ensures SliceIndex(|s|, a) > SliceIndex(|s|, b) ==> r == []
  {
    var lo := SliceIndex(|s|, a);
    var hi := SliceIndex(|s|, b);
    if lo <= hi then s[lo..hi] else []
  }

  /** Python's `s[-k:]`, the trailing `k` entries (all of them when `k` is 0). */
  function Trailing<T>(s: seq<T>, k: int): (r: seq<T>)
    ensures k == 0 || k >= |s| ==> r == s
    ensures 0 < k < |s| ==> r == s[|s| - k..]
    ensures k < 0 ==> r == s[Min(-k, |s|)..]
  {
    s[SliceIndex(|s|, -k)..]
  }

  /** `numpy.max` of a non-empty array. */
  function MaxOf(s: seq<real>): (m: real)
    requires |s| > 0
    ensures exists j :: 0 <= j < |s| && s[j] == m
    ensures forall i :: 0 <= i < |s| ==> s[i] <= m
  {
    if |s| == 1 then s[0]
    else
      var rest := MaxOf(s[1..]);
      assert forall i :: 1 <= i < |s| ==> s[i] == s[1..][i - 1];
      if s[0] >= rest then s[0] else rest
  }
}

=== FILE: process_logs.dfy ===
/** The small numeric helpers of the log-processing library: the
    window-maximum infra-red thresholds and the `mmm:ss` axis formatter. */
module ProcessLogs {
  import opened Wrappers
  import opened Numeric
  import opened Text

  const DefaultGain: real := 1.1

  /** `ir_raw[pre_skip:pre_skip+steps]`, the calibration window. */
  function CalibrationWindow(ir: seq<real>, steps: int, preSkip: int): seq<real>
  {
    Slice(ir, preSkip, preSkip + steps)
  }

  /** `guess_ir_thresh`: the window maximum times the gain.  The maximum of
      an empty window raises. */
  function GuessIrThresh(ir: seq<real>, gain: real, steps: int, preSkip: int): (r: Result<real, Error>)
    ensures r.Failure? <==> |CalibrationWindow(ir, steps, preSkip)| == 0
    ensures r.Failure? ==> r.error == InvalidArgument
    ensures r.Success? ==>
      var w := CalibrationWindow(ir, steps, preSkip);
      exists j :: 0 <= j < |w| && r.value == w[j] * gain && forall i :: 0 <= i < |w| ==> w[i] <= w[j]
  {
    var w := CalibrationWindow(ir, steps, preSkip);
    if |w| == 0 then Failure(InvalidArgument) else Success(MaxOf(w) * gain)
  }

  /** `guess_ir_with_offset`: the window maximum plus the offset. */
  function GuessIrWithOffset(ir: seq<real>, steps: int, preSkip: int, offset: real): (r: Result<real, Error>)
    ensures r.Failure? <==> |CalibrationWindow(ir, steps, preSkip)| == 0
    ensures r.Failure? ==> r.error == InvalidArgument
    ensures r.Success? ==>
      var w := CalibrationWindow(ir, steps, preSkip);
      (exists j :: 0 <= j < |w| && r.value == w[j] + offset) &&
      (forall j :: 0 <= j < |w| ==> w[j] + offset <= r.value)
  {
    var w := CalibrationWindow(ir, steps, preSkip);
    if |w| == 0 then Failure(InvalidArgument) else Success(MaxOf(w) + offset)
  }

  /** With a non-negative gain no calibration reading, scaled by the gain,
      exceeds the threshold: every reading in the window counts as "no hit". */
  lemma GuessIrThreshIsUpperBound(ir: seq<real>, gain: real, steps: int, preSkip: int)
    requires gain >= 0.0
    requires GuessIrThresh(ir, gain, steps, preSkip).Success?
    ensures var w := CalibrationWindow(ir, steps, preSkip);
      forall j :: 0 <= j < |w| ==> w[j] * gain <= GuessIrThresh(ir, gain, steps, preSkip).value
  {
    var w := CalibrationWindow(ir, steps, preSkip);
    var m := MaxOf(w);
    forall j | 0 <= j < |w|
      ensures w[j] * gain <= m * gain
    {
      ScaleMonotone(w[j], m, gain);
    }
  }

  lemma ScaleMonotone(a: real, b: real, c: real)
    requires a <= b && c >= 0.0
    ensures a * c <= b * c
  {
  }

  /** The two thresholds are the same window maximum, moved differently:
      a gain of one and an offset of zero agree. */
  lemma ThresholdsAgreeOnIdentity(ir: seq<real>, steps: int, preSkip: int)
    ensures GuessIrThresh(ir, 1.0, steps, preSkip) == GuessIrWithOffset(ir, steps, preSkip, 0.0)
  {
  }

  /** The minutes and seconds of `min_sec_fmtr`: Python's `int(s) % 60` and
      `int(s) / 60` round toward negative infinity, which for the positive
      divisor 60 is Dafny's Euclidean division. */
  function MinSec(s: real): (ms: (int, int))
    ensures 0 <= ms.1 < 60
    ensures 60 * ms.0 + ms.1 == Trunc(s)
  {
    (Trunc(s) / 60, Trunc(s) % 60)
  }

  /** `"{:3}:{:02}".format(mn, sec)`: the minutes right-aligned in three
      places, a colon, and the seconds zero-padded to two digits. */
  function Label(mn: int, sec: nat): (r: string)
    requires sec < 60
    ensures |r| >= 6 && r[|r| - 3] == ':'
    ensures r[..|r| - 3] == PadLeft(IntString(mn), 3, ' ')
    ensures r[|r| - 2..] == PadLeft(Digits(sec), 2, '0')
  {
    var left := PadLeft(IntString(mn), 3, ' ');
    var right := PadLeft(Digits(sec), 2, '0');
    SecondsRoundTrip(sec);
    assert (left + ":" + right)[..|left|] == left;
    left + ":" + right
  }

  /** `min_sec_fmtr(s, pos)`. */
  function MinSecFmtr(s: real): (r: string)
    ensures |r| >= 6 && r[|r| - 3] == ':'
    ensures r[..|r| - 3] == PadLeft(IntString(MinSec(s).0), 3, ' ')
    ensures r[|r| - 2..] == PadLeft(Digits(MinSec(s).1), 2, '0')
  {
    Label(MinSec(s).0, MinSec(s).1)
  }

  /** The seconds field is two digits that read back as the seconds. */
  lemma SecondsRoundTrip(sec: nat)
    requires sec < 60
    ensures |PadLeft(Digits(sec), 2, '0')| == 2
    ensures DigitsValue(PadLeft(Digits(sec), 2, '0')) == sec
  {
    var d := Digits(sec);
    DigitsShort(sec);
    var right := PadLeft(d, 2, '0');
    assert right == seq(|right| - |d|, _ => '0') + d;
    LeadingZeros(|right| - |d|, d);
    DigitsRoundTrip(sec);
  }

  /** The minutes field, with its alignment spaces removed, reads back as the minutes. */
  lemma MinutesRoundTrip(mn: int)
    ensures IntValue(TrimLeft(PadLeft(IntString(mn), 3, ' '), ' ')) == mn
  {
    hide TrimLeft, IntValue, IntString, Digits, DigitsValue;
    var ms := IntString(mn);
    var k := if |ms| >= 3 then 0 else 3 - |ms|;
    assert PadLeft(ms, 3, ' ') == seq(k, _ => ' ') + ms;
    TrimPadding(k, ms, ' ');
    IntStringRoundTrip(mn);
  }

  /** The formatted label can be read back: the text before the colon, with
      its alignment spaces removed, is the minute count, and the two digits
      after it are the seconds, so `60 * minutes + seconds == int(s)`. */
  lemma MinSecFmtrRoundTrip(s: real)
    ensures var r := MinSecFmtr(s);
      60 * IntValue(TrimLeft(r[..|r| - 3], ' ')) + DigitsValue(r[|r| - 2..]) == Trunc(s)
    ensures var r := MinSecFmtr(s);
      0 <= DigitsValue(r[|r| - 2..]) < 60
  {
    hide Label, MinSec, PadLeft, IntString, Digits, TrimLeft, IntValue, DigitsValue;
    LabelRoundTrip(MinSec(s).0, MinSec(s).1);
  }

  lemma LabelRoundTrip(mn: int, sec: nat)
    requires sec < 60
    ensures var r := Label(mn, sec);
      IntValue(TrimLeft(r[..|r| - 3], ' ')) == mn && DigitsValue(r[|r| - 2..]) == sec
  {
    SecondsRoundTrip(sec);
    MinutesRoundTrip(mn);
  }
}

=== FILE: resampling.dfy ===
/** `sample_signal`: resampling an irregularly timed log onto a regular
    grid by latching rows with a cursor that only moves forward.

    A log is a numpy 2-D array, modelled as a sequence of rows of equal
    width whose column 0 holds the timestamp.  Times are exact reals, so
    the accumulated `t += dt` of the original is the exact `(tt - 1) * dt`. */
module Resampling {
  import opened Wrappers
  import opened Numeric

  /** The shape invariant every numpy 2-D array has. */
  predicate Rectangular(raw: seq<seq<real>>)
  {
    forall i :: 0 <= i < |raw| ==> |raw[i]| == |raw[0]|
  }

  /** A log whose timestamps can be read: at least one row and one column. */
  predicate Readable(raw: seq<seq<real>>)
  {
    |raw| > 0 && |raw[0]| > 0 && Rectangular(raw)
  }

  /** Time of row `i` relative to the reference time. */
  function Elapsed(raw: seq<seq<real>>, first: real, i: nat): real
    requires Readable(raw) && i < |raw|
  {
    raw[i][0] - first
  }

  /** The inner `while elapsed < t` scan: move the cursor from row `i` past
      every row earlier than `t`, stopping at the last row. */
  function Advance(raw: seq<seq<real>>, first: real, t: real, i: nat): (j: nat)
    requires Readable(raw) && i < |raw|
    ensures i <= j < |raw|
    ensures forall k :: i <= k < j ==> Elapsed(raw, first, k) < t
    ensures j == |raw| - 1 || Elapsed(raw, first, j) >= t
    decreases |raw| - i
  {
    if Elapsed(raw, first, i) < t && i + 1 < |raw| then Advance(raw, first, t, i + 1) else i
  }

  /** The `while elapsed < t` loop of `sample_signal`, which computes `Advance`. */
  method Scan(raw: seq<seq<real>>, first: real, t: real, from: nat) returns (i: nat)
    requires Readable(raw) && from < |raw|
    ensures i == Advance(raw, first, t, from)
  {
    i := from;
    var elapsed := raw[i][0] - first;
    while elapsed < t
      invariant from <= i < |raw|
      invariant elapsed == Elapsed(raw, first, i)
      invariant Advance(raw, first, t, i) == Advance(raw, first, t, from)
      decreases |raw| - i
    {
      i := i + 1;
      if i < |raw| {
        elapsed := raw[i][0] - first;
      } else {
        i := i - 1;
        break;
      }
    }
  }

  /** The scan time of output step `tt`: `t` starts at `-dt` and grows by `dt`. */
  function ScanTime(dt: real, tt: nat): real
  {
    (tt as real - 1.0) * dt
  }

  /** The cursor after output step `tt` has been latched. */
  function Cursor(raw: seq<seq<real>>, first: real, dt: real, tt: nat): (i: nat)
    requires Readable(raw)
    ensures i < |raw|
  {
    var from := if tt == 0 then 0 else Cursor(raw, first, dt, tt - 1);
    Advance(raw, first, ScanTime(dt, tt), from)
  }

  lemma CursorStep(raw: seq<seq<real>>, first: real, dt: real, tt: nat)
    requires Readable(raw)
    ensures Cursor(raw, first, dt, tt) ==
      Advance(raw, first, ScanTime(dt, tt), if tt == 0 then 0 else Cursor(raw, first, dt, tt - 1))
  {
  }

  /** The reference time: `start_time` when given, else the first timestamp. */
  function RefTime(raw: seq<seq<real>>, startTime: Option<real>): real
    requires Readable(raw)
  {
    match startTime
    case None => raw[0][0]
    case Some(s) => s
  }

  /** `int(ceil((last_time - first_time) / dt))`, the number of output rows. */
  function NumSamples(raw: seq<seq<real>>, startTime: Option<real>, dt: real): int
    requires Readable(raw) && dt != 0.0
  {
    Ceil((raw[|raw| - 1][0] - RefTime(raw, startTime)) / dt)
  }

  datatype Sampled = Sampled(rows: seq<seq<real>>, timesteps: seq<real>)

  /** `sample_signal(raw, start_time, dt, t_offset)`.

      An empty array (no rows or no columns) fails on reading `raw[-1,0]`,
      `dt == 0` on the float division, and a negative row count on
      `numpy.zeros`. */
  method SampleSignal(raw: seq<seq<real>>, startTime: Option<real>, dt: real, tOffset: real)
    returns (r: Result<Sampled, Error>)
    requires Rectangular(raw)
    ensures r == Failure(OutOfRange) <==> !Readable(raw)
    ensures r == Failure(DivisionByZero) <==> Readable(raw) && dt == 0.0
    ensures r == Failure(InvalidArgument) <==> Readable(raw) && dt != 0.0 && NumSamples(raw, startTime, dt) < 0
    ensures r.Success? ==> Readable(raw) && dt != 0.0 && NumSamples(raw, startTime, dt) >= 0
    ensures r.Success? ==>
      var n := NumSamples(raw, startTime, dt);
      |r.value.rows| == n && |r.value.timesteps| == n &&
      forall tt :: 0 <= tt < n ==>
        r.value.rows[tt] == raw[Cursor(raw, RefTime(raw, startTime), dt, tt)] &&
        |r.value.rows[tt]| == |raw[0]| &&
        r.value.timesteps[tt] == GridTime(dt, tt) + tOffset
  {
    if !Readable(raw) {
      return Failure(OutOfRange);
    }
    if dt == 0.0 {
      return Failure(DivisionByZero);
    }
    hide NumSamples;
    var first := RefTime(raw, startTime);
    var num := NumSamples(raw, startTime, dt);
    if num < 0 {
      return Failure(InvalidArgument);
    }
    var rows, times := Latch(raw, first, dt, num, tOffset);
    return Success(Sampled(rows, times));
  }

  /** The `for tt in xrange(num_samples)` loop: latch the row under the
      cursor once per output step and stamp it with the grid time. */
  method Latch(raw: seq<seq<real>>, first: real, dt: real, num: nat, tOffset: real)
    returns (rows: seq<seq<real>>, times: seq<real>)
    requires Readable(raw)
    ensures |rows| == num && |times| == num
    ensures forall k :: 0 <= k < num ==> rows[k] == raw[Cursor(raw, first, dt, k)]
    ensures forall k :: 0 <= k < num ==> times[k] == GridTime(dt, k) + tOffset
  {
    hide Cursor;
    var t := -dt;
    var i: nat := 0;
    rows := [];
    times := [];
    for tt := 0 to num
      invariant |rows| == tt && |times| == tt
      invariant i < |raw|
      invariant i == if tt == 0 then 0 else Cursor(raw, first, dt, tt - 1)
      invariant t == ScanTime(dt, tt)
      invariant forall k :: 0 <= k < tt ==> rows[k] == raw[Cursor(raw, first, dt, k)]
      invariant forall k :: 0 <= k < tt ==> times[k] == GridTime(dt, k) + tOffset
    {
      i := Scan(raw, first, t, i);
      CursorStep(raw, first, dt, tt);
      var latched := raw[i];
      ScanTimeStep(dt, tt);
      t := t + dt;
      rows := rows + [latched];
      times := times + [t + tOffset];
      assert times[tt] == GridTime(dt, tt) + tOffset;
    }
  }

  /** The cursor never moves backwards. */
  lemma {:induction false} CursorMonotone(raw: seq<seq<real>>, first: real, dt: real, a: nat, b: nat)
    requires Readable(raw) && a <= b
    ensures Cursor(raw, first, dt, a) <= Cursor(raw, first, dt, b)
    decreases b
  {
    if a < b {
      CursorMonotone(raw, first, dt, a, b - 1);
    }
  }

  /** Once the cursor reaches the last row, every later output repeats it. */
  lemma {:induction false} CursorStaysLast(raw: seq<seq<real>>, first: real, dt: real, a: nat, b: nat)
    requires Readable(raw) && a <= b
    requires Cursor(raw, first, dt, a) == |raw| - 1
    ensures Cursor(raw, first, dt, b) == |raw| - 1
  {
    CursorMonotone(raw, first, dt, a, b);
  }

  /** Row `j` is the first row at or after time `t`, or the last row when no row is. */
  predicate FirstAtOrAfter(raw: seq<seq<real>>, first: real, t: real, j: nat)
    requires Readable(raw)
  {
    j < |raw| &&
    (forall k :: 0 <= k < j ==> Elapsed(raw, first, k) < t) &&
    (Elapsed(raw, first, j) >= t || j == |raw| - 1)
  }

  /** The time stamped on output row `tt`, before the offset. */
  function GridTime(dt: real, tt: nat): real
  {
    tt as real * dt
  }

  lemma ScanTimeStep(dt: real, tt: nat)
    ensures ScanTime(dt, tt) + dt == ScanTime(dt, tt + 1) == GridTime(dt, tt)
  {
  }

  lemma ScanTimeGrows(dt: real, tt: nat)
    requires dt >= 0.0
    ensures ScanTime(dt, tt) <= ScanTime(dt, tt + 1)
  {
    assert ScanTime(dt, tt + 1) - ScanTime(dt, tt) == dt;
  }

  /** For a non-negative step, output row `tt` is copied from the first row
      whose relative time is at least `(tt - 1) * dt`, or from the last row.
      The timestamps need not be sorted for this. */
  lemma {:induction false} CursorIsFirstAtOrAfter(raw: seq<seq<real>>, first: real, dt: real, tt: nat)
    requires Readable(raw) && dt >= 0.0
    ensures FirstAtOrAfter(raw, first, ScanTime(dt, tt), Cursor(raw, first, dt, tt))
  {
    if tt > 0 {
      CursorIsFirstAtOrAfter(raw, first, dt, tt - 1);
      ScanTimeGrows(dt, tt - 1);
    }
  }

  /** Only one row is the first at or after a given time. */
  lemma FirstAtOrAfterUnique(raw: seq<seq<real>>, first: real, t: real, j: nat, k: nat)
    requires Readable(raw)
    requires FirstAtOrAfter(raw, first, t, j) && FirstAtOrAfter(raw, first, t, k)
    ensures j == k
  {
  }

  /** With a positive step, the grid covers the log: the last output time
      `(n - 1) * dt` is before the last timestamp and `n * dt` is not. */
  lemma SampleCountCovers(raw: seq<seq<real>>, startTime: Option<real>, dt: real)
    requires Readable(raw) && dt > 0.0
    ensures var n := NumSamples(raw, startTime, dt);
      var span := raw[|raw| - 1][0] - RefTime(raw, startTime);
      (n - 1) as real * dt < span <= n as real * dt
  {
    CeilCovers(raw[|raw| - 1][0] - RefTime(raw, startTime), dt);
  }

  /** The ceiling of `span / dt` steps of `dt` cover `span`, one fewer do not. */
  lemma CeilCovers(span: real, dt: real)
    requires dt > 0.0
    ensures (Ceil(span / dt) - 1) as real * dt < span <= Ceil(span / dt) as real * dt
  {
    var q := span / dt;
    var n := Ceil(q);
    var lo, hi := (n - 1) as real, n as real;
    assert lo < q <= hi;
    DivideThenMultiply(span, dt);
    MultiplyMonotone(lo, q, dt);
    MultiplyMonotone(q, hi, dt);
  }

  lemma DivideThenMultiply(a: real, b: real)
    requires b != 0.0
    ensures a / b * b == a
  {
  }

  lemma MultiplyMonotone(a: real, b: real, c: real)
    requires a <= b && c > 0.0
    ensures a * c <= b * c
    ensures a < b ==> a * c < b * c
  {
  }
}

=== FILE: smoothing.dfy ===
/** The two box filters of the log-processing helpers: `movavg2`, a
    cumulative-sum moving average padded at both ends with window means, and
    `movingaverage`, numpy's zero-padded 'same' convolution with a box
    kernel of `w` weights `1/w`. */
module Smoothing {
  import opened Wrappers
  import opened Numeric

  function Max(a: int, b: int): int { if a >= b then a else b }

  /** A running total that starts at `acc` and adds the samples one by one. */
  function RunningTotal(data: seq<real>, acc: real): (cs: seq<real>)
    ensures |cs| == |data| + 1 && cs[0] == acc
  {
    if |data| == 0 then [acc] else [acc] + RunningTotal(data[1..], acc + data[0])
  }

  /** `numpy.cumsum(numpy.insert(data, 0, 0))`. */
  function CumSum(data: seq<real>): (cs: seq<real>)
    ensures |cs| == |data| + 1 && cs[0] == 0.0
  {
    RunningTotal(data, 0.0)
  }

  /** Entry `k` of a running total is the start value plus the first `k` samples. */
  lemma {:induction false} RunningTotalIsPrefixSum(data: seq<real>, acc: real, k: nat)
    requires k <= |data|
    ensures RunningTotal(data, acc)[k] == acc + Sum(data[..k])
    decreases k
  {
    if k > 0 {
      RunningTotalIsPrefixSum(data[1..], acc + data[0], k - 1);
      assert data[..k][1..] == data[1..][..k - 1];
    }
  }

  /** Entry `k` of the cumulative sum is the sum of the first `k` samples. */
  lemma CumSumIsPrefixSum(data: seq<real>, k: nat)
    requires k <= |data|
    ensures CumSum(data)[k] == Sum(data[..k])
  {
    RunningTotalIsPrefixSum(data, 0.0, k);
  }

  /** A difference of two running totals is the sum of the samples between them. */
  lemma WindowSum(data: seq<real>, j: nat, w: nat)
    requires j + w <= |data|
    ensures CumSum(data)[j + w] - CumSum(data)[j] == Sum(data[j..j + w])
  {
    var a, b := data[..j], data[j..j + w];
    CumSumIsPrefixSum(data, j + w);
    CumSumIsPrefixSum(data, j);
    assert data[..j + w] == a + b;
    SumAppend(a, b);
  }

  /** `(cs[w:] - cs[:-w]) / w` for a positive window: one entry per complete
      window, none when the window is longer than the data. */
  function BoxMeans(data: seq<real>, w: nat): (ma: seq<real>)
    requires w >= 1
    ensures |ma| == Max(|data| - w + 1, 0)
  {
    var cs := CumSum(data);
    seq(Max(|data| - w + 1, 0), j requires 0 <= j < Max(|data| - w + 1, 0) => (cs[j + w] - cs[j]) / w as real)
  }

  /** Entry `j` of the box means is the mean of the `w` samples starting at `j`. */
  lemma BoxMeansAreWindowMeans(data: seq<real>, w: nat, j: nat)
    requires w >= 1 && j + w <= |data|
    ensures BoxMeans(data, w)[j] == Mean(data[j..j + w])
  {
    WindowSum(data, j, w);
  }

  function Pad(k: nat, v: real): (r: seq<real>)
    ensures |r| == k && forall i :: 0 <= i < k ==> r[i] == v
  {
    seq(k, _ => v)
  }

  /** The value `movavg2` repeats in front: the mean of `data[:w/2]`. */
  function HeadMean(data: seq<real>, h: nat): real
    requires h >= 1 && |data| >= 1
  {
    Mean(data[..Min(h, |data|)])
  }

  /** The value `movavg2` repeats at the end: the mean of `data[-w/2:]`.
      Python 2 evaluates `-w/2` as the floor of `-w/2`, which is `-(w+1)/2`
      in natural-number division, so for odd `w` this window is one sample
      longer than the front one. */
  function TailMean(data: seq<real>, w: nat): real
    requires w >= 1 && |data| >= 1
  {
    Mean(Trailing(data, (w + 1) / 2))
  }

  /** `movavg2(data, w)`.

      A negative window makes `numpy.ones(w/2)` raise; a zero window makes
      the two slices of the running total disagree in shape unless the data
      is empty.  A window of two or more on empty data pads with the mean
      of an empty array, which is not a number. */
  function Movavg2(data: seq<real>, w: int): (r: Result<seq<real>, Error>)
    ensures r == Failure(InvalidArgument) <==> w < 0 || (w == 0 && |data| > 0)
    ensures r == Failure(NonFinite) <==> w >= 2 && |data| == 0
    ensures r.Success? ==> w >= 0
    ensures r.Success? && w >= 1 ==> |r.value| == 2 * (w / 2) + Max(|data| - w + 1, 0)
    ensures r.Success? && 1 <= w <= |data| ==> |r.value| == (if w % 2 == 1 then |data| else |data| + 1)
  {
    if w < 0 then Failure(InvalidArgument)
    else if w == 0 then
      if |data| == 0 then Success([]) else Failure(InvalidArgument)
    else
      var h := w / 2;
      if h == 0 then Success(BoxMeans(data, w))
      else if |data| == 0 then Failure(NonFinite)
      else Success(Pad(h, HeadMean(data, h)) + BoxMeans(data, w) + Pad(h, TailMean(data, w)))
  }

  /** Output position `j + w/2` holds the mean of the window that starts at sample `j`. */
  lemma Movavg2Interior(data: seq<real>, w: int, j: nat)
    requires w >= 1 && j + w <= |data|
    ensures Movavg2(data, w).Success?
    ensures Movavg2(data, w).value[j + w / 2] == Mean(data[j..j + w])
  {
    BoxMeansAreWindowMeans(data, w, j);
  }

  /** The first `w/2` outputs repeat the mean of the first `w/2` samples and
      the last `w/2` repeat the mean of the last `(w+1)/2` samples. */
  lemma Movavg2Padding(data: seq<real>, w: int, i: nat)
    requires w >= 2 && |data| >= 1 && i < w / 2
    ensures Movavg2(data, w).Success?
    ensures Movavg2(data, w).value[i] == Mean(data[..Min(w / 2, |data|)])
    ensures var r := Movavg2(data, w).value;
      r[|r| - 1 - i] == Mean(data[|data| - Min((w + 1) / 2, |data|)..])
  {
    var r := Movavg2(data, w).value;
    var h := w / 2;
    var ma := BoxMeans(data, w);
    assert r == Pad(h, HeadMean(data, h)) + ma + Pad(h, TailMean(data, w));
    assert r[|r| - 1 - i] == Pad(h, TailMean(data, w))[h - 1 - i];
  }

  /** Every value `movavg2` produces lies within the range of the samples. */
  lemma Movavg2Bounds(data: seq<real>, w: int, lo: real, hi: real)
    requires forall i :: 0 <= i < |data| ==> lo <= data[i] <= hi
    requires Movavg2(data, w).Success?
    ensures forall i :: 0 <= i < |Movavg2(data, w).value| ==> lo <= Movavg2(data, w).value[i] <= hi
  {
    var r := Movavg2(data, w).value;
    if w >= 1 {
      var h := w / 2;
      var ma := BoxMeans(data, w);
      forall j | 0 <= j < |ma|
        ensures lo <= ma[j] <= hi
      {
        BoxMeansAreWindowMeans(data, w, j);
        MeanBounds(data[j..j + w], lo, hi);
      }
      if h >= 1 {
        MeanBounds(data[..Min(h, |data|)], lo, hi);
        var t := Trailing(data, (w + 1) / 2);
        MeanBounds(t, lo, hi);
        assert r == Pad(h, HeadMean(data, h)) + ma + Pad(h, TailMean(data, w));
      }
    }
  }

  /** Sample `i`, or zero outside the data: the zero padding of a full convolution. */
  function Get(data: seq<real>, i: int): real
  {
    if 0 <= i < |data| then data[i] else 0.0
  }

  /** `data[c] + data[c-1] + ... + data[c-k+1]`, reading zero outside the data:
      the full convolution of the data with `k` ones, at position `c`. */
  function KernelSum(data: seq<real>, c: int, k: nat): real
  {
    if k == 0 then 0.0 else KernelSum(data, c, k - 1) + Get(data, c - (k - 1))
  }

  /** `movingaverage(data, w)`: `numpy.convolve` of the data with `w` weights
      `1/w` in 'same' mode.  numpy keeps `max(len, w)` entries of the full
      convolution, starting `(min(len, w) - 1) / 2` places in.  An empty
      kernel or empty data make `numpy.convolve` raise, and a negative
      window makes `numpy.ones` raise. */
  function MovingAverage(data: seq<real>, w: int): (r: Result<seq<real>, Error>)
    ensures r.Failure? <==> w <= 0 || |data| == 0
    ensures r.Failure? ==> r.error == InvalidArgument
    ensures r.Success? ==> |r.value| == Max(|data|, w)
    ensures r.Success? && w <= |data| ==> |r.value| == |data|
    ensures r.Success? ==> forall i :: 0 <= i < |r.value| ==>
      r.value[i] * w as real == KernelSum(data, i + (Min(|data|, w) - 1) / 2, w)
  {
    if w <= 0 || |data| == 0 then Failure(InvalidArgument)
    else
      var off := (Min(|data|, w) - 1) / 2;
      Success(seq(Max(|data|, w), i requires 0 <= i < Max(|data|, w) => KernelSum(data, i + off, w) / w as real))
  }

  /** Away from the edges the convolution adds up exactly one window of samples. */
  lemma {:induction false} KernelSumInside(data: seq<real>, c: int, k: nat)
    requires 0 <= c - k + 1 && c < |data|
    ensures KernelSum(data, c, k) == Sum(data[c - k + 1..c + 1])
  {
    if k > 0 {
      KernelSumInside(data, c, k - 1);
      assert data[c - k + 1..c + 1][1..] == data[c - k + 2..c + 1];
    }
  }

  /** Where the window lies wholly inside the data, `movingaverage` and
      `movavg2` agree entry for entry; they differ only in the `w/2`
      entries at each edge, where one pads with zeros and the other with
      means (and, for even `w`, in the extra final entry of `movavg2`). */
  lemma MovingAverageMatchesMovavg2(data: seq<real>, w: int, i: nat)
    requires 1 <= w <= |data|
    requires w / 2 <= i <= |data| - w + w / 2
    ensures MovingAverage(data, w).Success? && Movavg2(data, w).Success?
    ensures i < |MovingAverage(data, w).value| && i < |Movavg2(data, w).value|
    ensures MovingAverage(data, w).value[i] == Movavg2(data, w).value[i]
  {
    hide Movavg2, BoxMeans, Pad, CumSum;
    var j := i - w / 2;
    Movavg2Interior(data, w, j);
    KernelSumInside(data, i + (w - 1) / 2, w);
    assert i + (w - 1) / 2 - w + 1 == j;
  }

  lemma {:induction false} KernelSumBounds(data: seq<real>, c: int, k: nat, hi: real)
    requires 0.0 <= hi
    requires forall i :: 0 <= i < |data| ==> 0.0 <= data[i] <= hi
    ensures 0.0 <= KernelSum(data, c, k) <= k as real * hi
  {
    if k > 0 {
      KernelSumBounds(data, c, k - 1, hi);
      assert 0.0 <= Get(data, c - (k - 1)) <= hi;
      assert (k - 1) as real * hi + hi == k as real * hi;
    }
  }

  /** With non-negative samples at most `hi`, every smoothed value lies in
      `[0, hi]`: the zero padding can only pull edge values down. */
  lemma MovingAverageBounds(data: seq<real>, w: int, hi: real)
    requires forall i :: 0 <= i < |data| ==> 0.0 <= data[i] <= hi
    requires MovingAverage(data, w).Success?
    ensures forall i :: 0 <= i < |MovingAverage(data, w).value| ==> 0.0 <= MovingAverage(data, w).value[i] <= hi
  {
    var r := MovingAverage(data, w).value;
    var off := (Min(|data|, w) - 1) / 2;
    assert 0.0 <= data[0] <= hi;
    forall i | 0 <= i < |r|
      ensures 0.0 <= r[i] <= hi
    {
      KernelSumBounds(data, i + off, w, hi);
      DivideBounds(KernelSum(data, i + off, w), w as real, 0.0, hi);
    }
  }
}

=== FILE: text.dfy ===
/** Python's string conversions and string slicing, on `seq<char>`:
    `str` of an integer, format-width padding, `lstrip` and the last field
    of `split`, together with the readers that invert them. */
module Text {

  function DigitChar(d: nat): (c: char)
    requires d < 10
    ensures '0' <= c <= '9'
  {
    ('0' as int + d) as char
  }

  /** The decimal digits of a natural number, as `str` writes them. */
  function Digits(n: nat): (s: string)
    ensures |s| >= 1
    ensures forall i :: 0 <= i < |s| ==> '0' <= s[i] <= '9'
  {
    if n < 10 then [DigitChar(n)] else Digits(n / 10) + [DigitChar(n % 10)]
  }

  /** `str(i)` of an integer. */
  function IntString(i: int): (s: string)
    ensures |s| >= 1 && s[0] != ' '
  {
    if i < 0 then "-" + Digits(-i) else Digits(i)
  }

  /** Right-align `s` in a field of `width` characters, as a format width does. */
  function PadLeft(s: string, width: nat, fill: char): (r: string)
    ensures |r| == if |s| >= width then |s| else width
  {
    if |s| >= width then s else seq(width - |s|, _ => fill) + s
  }

  /** Reading decimal digits back. */
  function DigitsValue(s: string): int
  {
    if |s| == 0 then 0 else 10 * DigitsValue(s[..|s| - 1]) + (s[|s| - 1] as int - '0' as int)
  }

  /** Reading an integer back: an optional minus sign, then digits. */
  function IntValue(s: string): int
  {
    if |s| > 0 && s[0] == '-' then -DigitsValue(s[1..]) else DigitsValue(s)
  }

  /** `s.lstrip(fill)`: leading fill characters dropped. */
  function TrimLeft(s: string, fill: char): (r: string)
    ensures |r| <= |s| && r == s[|s| - |r|..]
    ensures |r| == 0 || r[0] != fill
    ensures forall i :: 0 <= i < |s| - |r| ==> s[i] == fill
  {
    if |s| > 0 && s[0] == fill then TrimLeft(s[1..], fill) else s
  }

  lemma {:induction false} DigitsRoundTrip(n: nat)
    ensures DigitsValue(Digits(n)) == n
  {
    if n >= 10 {
      DigitsRoundTrip(n / 10);
      var s := Digits(n);
      assert s[..|s| - 1] == Digits(n / 10);
    }
  }

  lemma IntStringRoundTrip(i: int)
    ensures IntValue(IntString(i)) == i
  {
    if i < 0 {
      DigitsRoundTrip(-i);
      assert ("-" + Digits(-i))[1..] == Digits(-i);
    } else {
      DigitsRoundTrip(i);
    }
  }

  /** Leading zeros do not change the value of a digit string. */
  lemma {:induction false} LeadingZeros(k: nat, s: string)
    ensures DigitsValue(seq(k, _ => '0') + s) == DigitsValue(s)
    decreases |s|
  {
    var z := seq(k, _ => '0');
    if |s| == 0 {
      ZerosValue(k);
      assert z + s == z;
    } else {
      assert (z + s)[..|z + s| - 1] == z + s[..|s| - 1];
      LeadingZeros(k, s[..|s| - 1]);
    }
  }

  lemma {:induction false} ZerosValue(k: nat)
    ensures DigitsValue(seq(k, _ => '0')) == 0
  {
    if k > 0 {
      assert seq(k, _ => '0')[..k - 1] == seq(k - 1, _ => '0');
      ZerosValue(k - 1);
    }
  }

  /** Stripping a fill character undoes padding with it, provided the
      padded text does not itself start with that character. */
  lemma {:induction false} TrimPadding(k: nat, s: string, fill: char)
    requires |s| == 0 || s[0] != fill
    ensures TrimLeft(seq(k, _ => fill) + s, fill) == s
  {
    var p := seq(k, _ => fill) + s;
    if k > 0 {
      assert p[0] == fill;
      assert p[1..] == seq(k - 1, _ => fill) + s;
      TrimPadding(k - 1, s, fill);
    } else {
      assert p == s;
    }
  }

  lemma DigitsShort(n: nat)
    requires n < 100
    ensures |Digits(n)| <= 2
  {
    if n >= 10 {
      assert Digits(n / 10) == [DigitChar(n / 10)];
    }
  }

  /** A positive number is written without leading zeros. */
  lemma {:induction false} DigitsLeading(n: nat)
    requires n >= 1
    ensures Digits(n)[0] != '0'
  {
    if n >= 10 {
      DigitsLeading(n / 10);
    }
  }

  /** `s.split(sep)[-1]`: the text after the last separator, or all of `s`. */
  function LastField(s: string, sep: char): (r: string)
    ensures sep !in r
    ensures |r| <= |s| && r == s[|s| - |r|..]
    ensures |r| == |s| || s[|s| - |r| - 1] == sep
  {
    if |s| == 0 || s[|s| - 1] == sep then []
    else LastField(s[..|s| - 1], sep) + [s[|s| - 1]]
  }
}

=== FILE: volatility_examples.dfy ===
/** The demonstration series of the volatility index, population 12: many
    swings score high, constant readings score zero, and only the size of
    the changes matters, not their shape. */
module VolatilityExamples {
  import opened Wrappers
  import opened Numeric
  import opened CollBehav
  import opened ExampleSeries

  /** With twelve animals the index is the total variation over 12 * (len - 1). */
  lemma VolatilityOfTwelve(X: seq<real>, n: int, v: real, w: real)
    requires n == 12 && |X| >= 2
    requires Variation(X) == v && v / 12.0 / (|X| as real - 1.0) == w
    ensures Volatility(X, n) == Success(w)
  {
    hide Volatility, VolSteps, VolStep, Variation, Mean, Sum, VolatilityOneFunc, VolatilityOneFuncIntended;
    VolatilityIsNormalisedVariation(X, n);
    SuccessIs(Volatility(X, n), w);
  }

  /** Losc1 swings fully at each of its 17 steps: the maximal index 1. */
  lemma VolatilityLosc1(n: int)
    requires n == 12
    ensures Volatility(Losc1(n), n) == Success(1.0)
  {
    hide Volatility, VolSteps, VolStep, Variation, Mean, Sum, VolatilityOneFunc, VolatilityOneFuncIntended;
    VariationUniform(Losc1(n), 12.0);
    VolatilityOfTwelve(Losc1(n), n, 204.0, 1.0);
  }

  lemma VariationOfPeriod(a: real, b: real)
    ensures Variation([a, a, b, b]) == AbsReal(a - b)
  {
    assert [b, b][1..] == [b];
    assert Variation([b, b]) == 0.0;
    assert [a, b, b][1..] == [b, b];
    assert Variation([a, b, b]) == AbsReal(a - b);
    assert [a, a, b, b][1..] == [a, b, b];
  }

  /** Each period of four adds two swings (one inside, one across). */
  lemma {:induction false} VariationTwoLevel(a: real, b: real, j: nat)
    ensures Variation(TwoLevel(a, b, 4 * j + 2)) == (2 * j) as real * AbsReal(a - b)
  {
    hide Variation;
    var X := TwoLevel(a, b, 4 * j + 2);
    var d := AbsReal(a - b);
    if j == 0 {
      assert X == [a, a];
      VariationPair(a, a);
    } else {
      var Y := TwoLevel(a, b, 4 * (j - 1) + 2);
      VariationTwoLevel(a, b, j - 1);
      forall i | 0 <= i < |Y|
        ensures X[4..][i] == Y[i]
      {
        assert (i + 4) % 4 == i % 4;
      }
      assert X[4..] == Y;
      assert X[..4] == [a, a, b, b];
      assert X == X[..4] + X[4..];
      VariationOfPeriod(a, b);
      VariationAppend(X[..4], X[4..]);
      assert AbsReal(b - a) == d;
      assert (2 * j) as real * d == d + d + (2 * (j - 1)) as real * d;
    }
  }

  lemma VariationPair(a: real, b: real)
    ensures Variation([a, b]) == AbsReal(a - b)
  {
    assert [a, b][1..] == [b];
  }

  /** Losc2 has 24 full swings in 49 steps. */
  lemma VolatilityLosc2(n: int)
    requires n == 12
    ensures Volatility(Losc2(n), n) == Success(24.0 / 49.0)
  {
    hide Volatility, VolSteps, VolStep, Variation, Mean, Sum, VolatilityOneFunc, VolatilityOneFuncIntended;
    VariationTwoLevel(n as real, 0.0, 12);
    VolatilityOfTwelve(Losc2(n), n, 288.0, 24.0 / 49.0);
  }

  /** Losc3 swings by n/2 = 6 at 9 of its 19 steps. */
  lemma VolatilityLosc3(n: int)
    requires n == 12
    ensures Volatility(Losc3(n), n) == Success(9.0 / 38.0)
  {
    hide Volatility, VolSteps, VolStep, Variation, Mean, Sum, VolatilityOneFunc, VolatilityOneFuncIntended;
    var X := Losc3(n);
    var A := TwoLevel(12.0, 6.0, 18);
    assert X[..18] == A;
    assert X[18..] == [6.0, 6.0];
    assert X == X[..18] + X[18..];
    VariationTwoLevel(12.0, 6.0, 4);
    VariationPair(6.0, 6.0);
    VariationAppend(X[..18], X[18..]);
    VolatilityOfTwelve(X, n, 54.0, 9.0 / 38.0);
  }

  /** One full step change in 49 steps. */
  lemma VolatilityL1step(n: int)
    requires n == 12
    ensures Volatility(L1step(n), n) == Success(1.0 / 49.0)
  {
    hide Volatility, VolSteps, VolStep, Variation, Mean, Sum, VolatilityOneFunc, VolatilityOneFuncIntended;
    var X := L1step(n);
    assert X == X[..25] + X[25..];
    VariationConstant(X[..25]);
    VariationConstant(X[25..]);
    VariationAppend(X[..25], X[25..]);
    VolatilityOfTwelve(X, n, 12.0, 1.0 / 49.0);
  }

  /** The ramp moves by one animal at each of 12 steps: the same total, the same index. */
  lemma VolatilityL1ramp(n: int)
    requires n == 12
    ensures Volatility(L1ramp(n), n) == Success(1.0 / 49.0)
  {
    hide Volatility, VolSteps, VolStep, Variation, Mean, Sum, VolatilityOneFunc, VolatilityOneFuncIntended;
    var X := L1ramp(n);
    assert X == X[..13] + X[13..];
    VariationUniform(X[..13], 1.0);
    VariationConstant(X[13..]);
    VariationAppend(X[..13], X[13..]);
    VolatilityOfTwelve(X, n, 12.0, 1.0 / 49.0);
  }

  /** Two full transitions in 49 steps. */
  lemma VolatilityL2(n: int)
    requires n == 12
    ensures Volatility(L2(n), n) == Success(2.0 / 49.0)
  {
    hide Volatility, VolSteps, VolStep, Variation, Mean, Sum, VolatilityOneFunc, VolatilityOneFuncIntended;
    var X := L2(n);
    var A, B, C := X[..20], X[20..25], X[25..];
    assert X == A + (B + C);
    VariationConstant(A);
    VariationConstant(B);
    VariationConstant(C);
    VariationAppend(B, C);
    VariationAppend(A, B + C);
    VolatilityOfTwelve(X, n, 24.0, 2.0 / 49.0);
  }

  /** Constant readings at n, at 0 and at n/2 all score zero. */
  lemma VolatilityConstants(n: int)
    requires n == 12
    ensures Volatility(Constant(n as real), n) == Success(0.0)
    ensures Volatility(Constant(0.0), n) == Success(0.0)
    ensures Volatility(Constant((n / 2) as real), n) == Success(0.0)
  {
    hide Volatility, VolSteps, VolStep, Variation, Mean, Sum, VolatilityOneFunc, VolatilityOneFuncIntended;
    VolatilityConstant(Constant(n as real), n);
    VolatilityConstant(Constant(0.0), n);
    VolatilityConstant(Constant((n / 2) as real), n);
  }

  /** The one-line form divides Losc1's variation 204 by 12 * 18 - 1 = 215
      instead of 12 * 17 = 204, so it misses the maximal value 1. */
  lemma OneFuncLosc1(n: int)
    requires n == 12
    ensures VolatilityOneFunc(Losc1(n), n) == Success(204.0 / 215.0)
    ensures Volatility(Losc1(n), n) == Success(1.0)
    ensures VolatilityOneFuncIntended(Losc1(n), n) == Success(1.0)
  {
    hide Volatility, VolSteps, VolStep, Variation, Mean, Sum, VolatilityOneFunc, VolatilityOneFuncIntended;
    VariationUniform(Losc1(n), 12.0);
    VolatilityOneFuncAsWritten(Losc1(n), n);
    VolatilityLosc1(n);
    VolatilityOneFuncIntendedAgrees(Losc1(n), n);
  }
}

=== FILE: wrappers.dfy ===
/** Failure-carrying results for the analysis helpers.

    The analysed code signals problems in two ways: Python exceptions, and
    numpy results that are not finite numbers (the mean of an empty selection,
    a division of an array by zero).  Both are modelled as `Failure` values so
    that no operation needs a precondition the original does not impose. */
module Wrappers {

  datatype Option<+T> = None | Some(value: T) {
    predicate IsFailure() { None? }

    function PropagateFailure<U>(): Option<U>
      requires None?
    {
      None
    }

    function Extract(): T
      requires Some?
    {
      value
    }
  }

  datatype Result<+R, +E> = Success(value: R) | Failure(error: E) {
    predicate IsFailure() { Failure? }

    function PropagateFailure<U>(): Result<U, E>
      requires Failure?
    {
      Failure(error)
    }

    function Extract(): R
      requires Success?
    {
      value
    }
  }

  /** A successful result is determined by its value. */
  lemma SuccessIs<R, E>(r: Result<R, E>, v: R)
    requires r.Success? && r.value == v
    ensures r == Success(v)
  {
  }

  /** The ways an analysis step can fail to produce a number. */
  datatype Error =
    | NotImplemented   // NotImplementedError: an unsupported configuration
    | OutOfRange       // IndexError, or the explicit "past end of array" RuntimeError
    | DivisionByZero   // ZeroDivisionError from Python float division
    | InvalidArgument  // ValueError: negative array size, empty maximum, empty kernel, NaN to int
    | MissingKey       // KeyError: a per-node field that was never computed
    | NonFinite        // numpy returned NaN or an infinity instead of raising
}
